=== FILE: README.md ===
# markpy in Dafny

A model of the core of markpy, a parser for the MarkSC markup language. The
parser turns a text into a document tree in one left-to-right scan. The scan
keeps a cursor `chid`, a mode flag (line-start or in-line recognition) and an
open-node stack. Pushing a node onto the stack stamps its `depth`. Popping a
node attaches it as the last child of the node beneath it. At the end, every
node still open is closed into the Document at the bottom of the stack.

The project has three layers and a layer of proofs:

- `element_node.dfy` (module `ElementNode`) holds the document tree. It has
  node kinds, construction, `matches_type`, `append_child`, `find_any` and
  `filter`. `find_any` and `filter` are related to a pre-order traversal
  used as their reference definition.
- `element_stack.dfy` (module `ElementStack`) holds the open-node stack:
  `push`, `top`, `count`, `pop` and `pop(until)`. The stack is a sequence
  of frames, and each frame is a node holding the children completed so
  far. Attaching a node to its parent is a pure update of the frame beneath.
- `text.dfy` (module `Text`) holds the string operations the parser uses:
  indexing, slicing, `str.index`, character runs and line splitting.
- `scan_rules.dfy` (module `ScanRules`) has one function per rule of
  `parse_document`, plus `escape`, preprocessing and tokenising.
- `parser.dfy` (module `Parser`) holds the scan loop, the final closing of
  the stack, and `parse_document` itself.
- `scan_invariant.dfy` (module `ScanInvariant`) states the invariant of the
  scan loop and shows that every rule keeps it:
  - the Document is at the bottom of the stack and nowhere else;
  - every frame's `depth` is its position;
  - no Formula or FormulaSpan stays open;
  - no frame holds a Document among its descendants.
  From this it follows that the stack never underflows, that no `depth`
  lookup fails, that every step makes progress, which is the
  termination measure of the loop, and that the parsed tree has the
  Document as its only Document, at the root.
- `rule_properties.dfy` (module `RuleProperties`) states what the individual
  rules do to the tree under construction.
- `results.dfy` (module `Results`) holds the `Error`, `Option` and `Result`
  types.

Every way the Python code can abort becomes an `Error` value. A
successful parse returns the root Document. The model works on the
preprocessed text as a `string`, with Python 2's default whitespace set for
`rstrip`.

Where the code is quirky, the model follows it:

- The display-formula search for the closing `$$` starts at the second `$`,
  so `$$$` is a complete empty formula (`TripleDollarClosesAtOnce`).
- Only the marker characters of `!`, `=` and `- ` are consumed.
- Text before any section goes into a Paragraph directly under the Document.
- An unknown escape such as `\q` stays two characters.
- An unclaimed character at line start is scanned again in in-line mode.
- An ordinary line directly after a paragraph line (as in `a` newline `b`)
  is rejected as unimplemented unless it starts with `->`. A blank line in
  between does not help outside a section: `a`, a blank line, then `b` is
  rejected the same way.
- Blank lines outside any section, with no Block open, push a Block onto
  whatever frame is on top. After preamble text that frame is the open
  String, so in `a`, a blank line, then `$$x$$` the Formula lands in a Block
  that is a child of the String holding `a` (`BlankLinesOutsideSection`).
- Input ending in a blank line reads past its end (`BlankRunToEndFails`).
- After a code block the scan stays in in-line mode.

## Model

| member | source | states |
|---|---|---|
| ElementNode.NewNode | elementNode.py:26-30 | a new node of any kind has no children, no text and no attributes set |
| ElementNode.NewLeaf | elementNode.py:208-219 | a String or RawHTML node holds exactly the given text and nothing else |
| ElementNode.NewAlert | elementNode.py:228-230 | an Alert carries `level` as its only attribute, with no children |
| ElementNode.NewImage | elementNode.py:245-247 | an Image carries `path` as its only attribute, with no children |
| ElementNode.MatchesType | elementNode.py:32-41 | true exactly when the node's kind is one of the listed types |
| ElementNode.MatchesKind | elementNode.py:35-36 | a single type behaves as the one-element list: true exactly for that kind |
| ElementNode.AppendChild | elementNode.py:43-48 | kind, attributes and text are unchanged; old children keep their positions, and the new nodes follow them in the given order |
| ElementNode.AppendChildPreOrder | elementNode.py:43-51 | appending keeps every descendant, in order, and adds the new subtrees after them |
| ElementNode.AppendOneChildPreOrder | elementNode.py:43-51 | appending one child adds exactly that child and its descendants after the node's existing descendants |
| ElementNode.FindAny | elementNode.py:53-71 | returns the node itself whenever it matches, and only ever returns matching nodes |
| ElementNode.FindAnyIsFirstPreOrderMatch | elementNode.py:53-71 | `find_any` is the first match of the pre-order traversal, children left to right; it is None exactly when no node of the subtree matches |
| ElementNode.FindInChildrenIsFirstMatch | elementNode.py:66-71 | the child loop returns the first match in the children's subtrees taken in order |
| ElementNode.FilterIsPreOrderSelection | elementNode.py:110-125 | the nodes the forest refers to are exactly the matching nodes of the subtree, each once, in pre-order |
| ElementNode.FilterKeepsAncestry | elementNode.py:112-123 | every result node refers to a matching node of the subtree, and a result node below another refers to a proper descendant of that one's node |
| ElementStack.Push | markpy/elementstack.py:31-33 | the stack grows by one, the frames below are unchanged, and the new top is the node with `depth` set to the old height |
| ElementStack.Top | markpy/elementstack.py:35-37 | fails exactly on the empty stack, otherwise returns the last frame |
| ElementStack.TopPush | markpy/elementstack.py:31-37 | `top()` right after `push(obj)` is `obj`, with its kind, text and children unchanged and `depth` set to the height before the push |
| ElementStack.TopPop | markpy/elementstack.py:59-64 | `top()` after a `pop()` that leaves frames is the old second frame, now holding the old top as its last child |
| ElementStack.Count | markpy/elementstack.py:39-53 | 1 if some open frame matches, else 0, never more |
| ElementStack.CountFrom | markpy/elementstack.py:47-53 | the loop from position `i` yields 1 exactly when a frame at or above `i` matches |
| ElementStack.Pop | markpy/elementstack.py:59-64 | fails on an empty stack; removes a sole frame without attaching it; otherwise the top becomes the last child of the frame beneath it and nothing else changes |
| ElementStack.PopUntil | markpy/elementstack.py:66-72 | for a non-empty list of types: unchanged when nothing matches; otherwise the topmost matching frame is on top, the frames below it are untouched, and the closed frames hang beneath it as one nested chain |
| ElementStack.PopWithUntil | markpy/elementstack.py:55-72 | with the default empty `until` it is the plain `pop()`: it fails exactly on an empty stack, removes one frame and attaches the old top to the frame beneath; with a non-empty list it never fails, leaves the stack alone when nothing matches, and otherwise closes down to the topmost match |
| ElementStack.PopLoop | markpy/elementstack.py:71-72 | with a matching frame open, the loop never fails and ends with the topmost matching frame on top, the closed frames nested into it |
| ElementStack.PopThenClose | markpy/elementstack.py:71-72 | one plain pop of a non-matching top followed by closing down gives the same stack as closing down at once |
| ElementStack.PopUntilStopsAt | markpy/elementstack.py:66-72 | when the topmost matching frame is at position `k`, `pop(until)` leaves exactly `k + 1` frames |
| ElementStack.PopUntilIdempotent | markpy/elementstack.py:67-72 | a second `pop(until)` with the same types changes nothing |
| Text.CharAt | markpy/parser.py:61-65 | reading past the end is an IndexError, otherwise the character |
| Text.Index | markpy/parser.py:94 | `str.index` returns the first occurrence at or after the start, and fails exactly when none exists |
| Text.RunLength | markpy/parser.py:117-120 | the run counted consists of the character and is followed by a different one; a run that reaches the end of the input is an IndexError |
| Text.RStrip | markpy/parser.py:50 | the result is a prefix of the line that does not end in whitespace, and only whitespace was removed |
| Text.JoinSplit | markpy/parser.py:50 | joining the pieces of a split gives the original text back |
| Text.SplitJoin | markpy/parser.py:50 | splitting a join of newline-free lines gives the lines back |
| ScanRules.Escape | markpy/parser.py:33-47 | exactly the pairs `\$ \% \+ \* \! \/ \\` become their second character; every other token is unchanged |
| ScanRules.Token | markpy/parser.py:60-65 | a backslash and the following character form one token; a backslash at the very end is an IndexError |
| ScanRules.CloseLeafIsPushPop | markpy/parser.py:223-230 | pushing a node and a String, then popping twice, closes the node holding the String into the frame that was on top |
| ScanRules.ScanComment | markpy/parser.py:77-80 | a comment skips to just past the first newline and stays at line start; it fails exactly when no newline is left, with a ValueError |
| ScanRules.ScanImage | markpy/parser.py:86-106 | an image resumes just past the closing caret and fails only when there is none |
| ScanRules.ScanAlert | markpy/parser.py:112-129 | an alert consumes exactly the run of `!`, and fails exactly when the run reaches the end of the input |
| ScanRules.CloseSections | markpy/parser.py:143-145 | the closing loop ends with a frame on top whose depth is below the heading's depth |
| ScanRules.BlankLinesStack | markpy/parser.py:168-175 | blank lines close down to an open Block; with none open, unless only the Document is open, they close down to the innermost Section and push a Block on the frame left on top, which is the top frame itself when no Section is open |
| ScanRules.ScanBlankLines | markpy/parser.py:163-178 | the whole run of newlines is skipped and the scan stays at line start; on a non-empty stack it fails exactly when the run reaches the end of the input |
| ScanRules.PopItem | markpy/parser.py:197-199 | closing the previous list item leaves the frames below it in place |
| ScanRules.ScanListItem | markpy/parser.py:190-209 | only the `-` is consumed, and a fresh ListItem holding a fresh Paragraph is on top |
| ScanRules.CaptureFinds | markpy/parser.py:219-232 | a capture fails exactly when the closing delimiter does not occur from the search start on, and otherwise stops just past its first occurrence |
| ScanRules.ScanCode | markpy/parser.py:242-243 | a line starting with `~` but not with `~~~` is rejected |
| ScanRules.ScanEndOfBlock | markpy/parser.py:267-283 | `%` succeeds exactly when a Block is open and a newline follows it; it fails with no Block open, at the end of the input, or without a newline after it; on success it skips the newline and leaves a fresh empty Block on top at the height of the closed one |
| ScanRules.ScanOtherLineStart | markpy/parser.py:289-301 | before any Paragraph nothing changes; after a heading the section's Block is opened; otherwise NotImplementedError; the cursor never moves |
| ScanRules.ScanSpan | markpy/parser.py:350-396 | closes everything above the innermost Paragraph, then opens the span only if none of its kind was open, so at most one frame is left above that Paragraph |
| ScanRules.AppendText | markpy/parser.py:420-423 | text is appended to the String on top, and fails exactly when the top is not a String |
| ScanRules.PushWithParagraph | markpy/parser.py:97-102 | the node and then a fresh Paragraph are pushed above the unchanged stack |
| ScanInvariant.NoFormulaOpen | markpy/parser.py:223-230 | on every well-formed stack, which every scan state has, no Formula or FormulaSpan is open, so the formula branches that do not move the cursor are never taken |
| ScanInvariant.PopKeepsNoInnerDocument | markpy/elementstack.py:62-64 | attaching a non-Document top frame to the frame beneath keeps every frame free of Document descendants |
| ScanInvariant.CloseLeafWellFormed | markpy/parser.py:223-230 | closing a captured node holding its String onto the stack keeps the invariant, including that no Document lies below any frame |
| ScanInvariant.CloseSectionsSound | markpy/parser.py:142-146 | the heading's closing loop cannot fail and keeps the invariant, leaving at most `depth` frames |
| ScanInvariant.SectionBaseSound | markpy/parser.py:142-146 | the closing loop cannot fail, and the level check passes exactly when it leaves `depth` frames, that is, when the frame on top (whose depth is its height) is at most one level above the heading; it fails only with BadHeadingDepth and never for depth 1; when it passes, the frames left are well formed and kept from the old stack |
| ScanInvariant.HeadingFrames | markpy/parser.py:148-156 | Section, SectionTitle and Paragraph are opened in that order, empty, above the unchanged stack, with the Section at depth equal to the old height |
| ScanInvariant.HeadingPush | markpy/parser.py:148-156 | opening a heading's three frames keeps the invariant |
| ScanInvariant.TextStackSound | markpy/parser.py:409-426 | ordinary text keeps the invariant and fails only when an open String is not on top |
| ScanInvariant.StepSound | markpy/parser.py:60-426 | one iteration keeps the invariant, never underflows the stack or reads a missing `depth`, and lowers the loop measure |
| Parser.Run | markpy/parser.py:60 | the loop terminates, keeps the invariant, and on success has read the whole text |
| Parser.Finish | markpy/parser.py:428-431 | the final `pop(until=DocumentNode)` and `top()` return the Document with every open frame nested beneath it |
| Parser.WellFormedClosesToRoot | markpy/parser.py:428 | on a scan stack, closing down to the Document leaves it as the only frame |
| Parser.Start | markpy/parser.py:52-58 | the scan starts at line start, at position 0, with only the Document at depth 0 open |
| Parser.Parse | markpy/parser.py:30-431 | a successful parse returns the Document pushed first, no node below it is a Document (the single root that elementNode.py:153-154 promises), and it never fails by stack underflow or a missing `depth` |
| Parser.NestNoInnerDocument | markpy/parser.py:428-431 | closing a stack whose upper frames are not Documents and hold none builds a tree with no Document below its root |
| Parser.PreprocessLines | markpy/parser.py:50 | preprocessing keeps the number of lines and replaces each line by its right-stripped form |
| Parser.PreprocessIdempotent | markpy/parser.py:50 | preprocessing twice is preprocessing once |
| Parser.PreprocessClean | markpy/parser.py:50 | text without trailing whitespace on any line is unchanged |
| RuleProperties.SectionFails | markpy/parser.py:142-146 | opening a section succeeds exactly when the closing loop leaves `n` frames, so the frame on top is at most one level above the heading; otherwise it fails with BadHeadingDepth; it never fails for a single `=` |
| RuleProperties.SubsectionOpens | markpy/parser.py:142-156 | a heading one level deeper than the innermost open Section is accepted |
| RuleProperties.SectionDepthIsLevel | markpy/parser.py:137-156 | the new Section sits at height `n`, so its `depth` is the length of its `=` run, with its SectionTitle and Paragraph above it |
| RuleProperties.SectionKeepsFrames | markpy/parser.py:142-156 | the frames below the new Section are frames of the old stack |
| RuleProperties.HeadingOpensSection | markpy/parser.py:135-158 | a heading consumes exactly its `=` run and fails exactly when opening its section does |
| RuleProperties.HeadingAtEndFails | markpy/parser.py:138-140 | a run of `=` reaching the end of the input is an IndexError |
| RuleProperties.CaptureKeepsFrames | markpy/parser.py:223-230 | a capture changes only the frame it closes into, and that frame only by one more child |
| RuleProperties.CaptureAddsLeaf | markpy/parser.py:221-230 | the added child is of the captured kind and holds one String with the raw slice up to the delimiter |
| RuleProperties.DisplayFormulaFinds | markpy/parser.py:215-221 | a display formula fails exactly when no closing delimiter occurs from the character after `chid` on |
| RuleProperties.DisplayFormulaStopsAtFirst | markpy/parser.py:220-232 | otherwise the scan resumes just past the first closing delimiter |
| RuleProperties.DisplayFormulaAddsFormula | markpy/parser.py:216-230 | the innermost open Block, or the top frame when none is open, gains exactly one Formula child |
| RuleProperties.InlineFormulaFinds | markpy/parser.py:309-321 | an inline formula fails exactly when no closing delimiter occurs from the character after `chid` on |
| RuleProperties.InlineFormulaStopsAtFirst | markpy/parser.py:320-333 | otherwise the scan resumes just past the first closing delimiter |
| RuleProperties.InlineFormulaAddsSpan | markpy/parser.py:310-331 | the innermost open Paragraph or span, or the top frame when none is open, gains exactly one FormulaSpan child |
| RuleProperties.CodeFinds | markpy/parser.py:243-247 | a code block with a proper fence fails exactly when no `~~~` line end follows the fence's first character |
| RuleProperties.CodeStopsAtFirst | markpy/parser.py:247-260 | otherwise the scan resumes just past the closing fence and its newline |
| RuleProperties.CodeAddsCode | markpy/parser.py:245-258 | the innermost open Block, or the top frame when none is open, gains one Code child whose only child is a String with the text between the fences, verbatim |
| RuleProperties.TripleDollarClosesAtOnce | markpy/parser.py:215-232 | `$$$` at line start is already a complete display formula, ending after the third `$` |
| RuleProperties.EndOfBlockReopens | markpy/parser.py:267-283 | `%` succeeds exactly when a Block is open and a newline follows; it then closes the innermost open Block into its parent and opens a fresh empty Block at the same height |
| RuleProperties.ImageOpensFrame | markpy/parser.py:89-104 | an image opens, under the innermost open Block or the top frame when none is open, an Image whose `path` is the text between the carets, then its Paragraph |
| RuleProperties.AlertOpensFrame | markpy/parser.py:115-127 | an alert opens, under the innermost open Block or the top frame when none is open, an Alert whose `level` is the number of `!`, then its Paragraph |
| RuleProperties.ListItemOpensContainer | markpy/parser.py:192-206 | with no list open, a ListContainer is opened under the innermost open Boxed or Block, or the top frame when neither is open, holding the new ListItem and Paragraph |
| RuleProperties.ListItemReplacesItem | markpy/parser.py:197-206 | with a list open, the previous ListItem is closed into the frame beneath it and the new one takes its place at the same height |
| RuleProperties.TextStartsString | markpy/parser.py:411-419 | with no String open, text opens a Paragraph if none is open and then a String holding exactly the text |
| RuleProperties.TextExtendsString | markpy/parser.py:416-423 | with a String open, text is appended to it; this fails exactly when the String is not on top or no Paragraph is open |
| RuleProperties.ContinuationSkipsMarker | markpy/parser.py:183-185 | `->` at line start is skipped and the line goes on in-line, with the stack unchanged |
| RuleProperties.PlainCharExtendsString | markpy/parser.py:409-426 | an ordinary in-line character is appended to the String on top, and the cursor moves by one |
| RuleProperties.EscapedNewlineJoinsString | markpy/parser.py:63-65 | a backslash before a newline keeps both characters in the String and the scan stays in-line |
| RuleProperties.BlankLinesOutsideSection | markpy/parser.py:168-173 | with no Section and no Block open and something above the Document, blank lines push an empty Block directly onto the frame on top, whatever its kind |
| RuleProperties.BlankRunToEndFails | markpy/parser.py:163-166 | a run of newlines reaching the end of the input is an IndexError |

## Left out

- `to_string` (elementNode.py:127-150) prints object identities and Python dict representations, which is formatting rather than logic.
- Parent back-pointers and object identity (elementNode.py:28, 51, 102) are not modelled. A node is the child of the node whose `children` holds it, and a `filter` result node refers to the original node by value.
- The `extra` map (elementNode.py:29) is not modelled. Nothing in the core writes it.
- The shared mutable default `attrib` of AlertNode and ImageNode (elementNode.py:228-230, 245-247) is not modelled. Each node gets a fresh attribute record holding only the keys the core uses: `depth`, `level` and `path`.
- RawHTML and Boxed nodes have no construction rule of their own, because the parser never creates them. Boxed only appears as a target of `pop(until)`.
- Python exception classes are collapsed into the `Error` values of `results.dfy`:
  - a failed `assert` in `top`/`pop` becomes `StackUnderflow`;
  - the parser's own `assert` statements become `BadHeadingDepth`, `BadCodeFence`, `NoOpenBlock`, `BadBlockEnd` and `StringNotOnTop`;
  - an `IndexError` becomes `IndexOutOfRange`;
  - the `ValueError` from `str.index` becomes `MissingDelimiter`;
  - a `KeyError` on `depth` becomes `MissingKey`;
  - `NotImplementedError` becomes `Unimplemented`.
- Passing a single type instead of a list to `matches_type`, `count` or `pop` has no separate path. The model always passes a sequence of kinds, and a single type is a one-element sequence.
- The commented-out debug output (markpy/parser.py:67-69) is left out.
- ElementNode.Filter: the tree shape of the `filter` result is its definition. The contracts state which nodes the forest refers to, in what order, and which ancestry it keeps.
- Several scanning functions carry no contract of their own. What they do is stated by the lemmas about them:
  - ScanRules.ScanText and ScanRules.TextStack: TextStackSound, TextStartsString, TextExtendsString, PlainCharExtendsString and EscapedNewlineJoinsString.
  - ScanRules.Capture: CaptureFinds, CaptureAddsLeaf and CaptureKeepsFrames.
  - ScanRules.ScanDisplayFormula: the DisplayFormula lemmas and TripleDollarClosesAtOnce.
  - ScanRules.ScanInlineFormula: InlineFormulaFinds, InlineFormulaStopsAtFirst and InlineFormulaAddsSpan.
  - ScanRules.ScanHeading: HeadingOpensSection and HeadingAtEndFails.
  - ScanRules.OpenSection and ScanRules.SectionBase: SectionBaseSound, SectionFails, SubsectionOpens, SectionDepthIsLevel and SectionKeepsFrames.
  - ScanRules.ScanDash and ScanRules.ScanContinuation: ContinuationSkipsMarker, and ListItemOpensContainer and ListItemReplacesItem for the list branch.
  - ScanRules.ScanDollar: TripleDollarClosesAtOnce.
  - ScanRules.ScanNewline, ScanRules.LineStart, ScanRules.InLine and ScanRules.Step: StepSound, plus the lemmas stated on Step: ContinuationSkipsMarker, PlainCharExtendsString, EscapedNewlineJoinsString and BlankRunToEndFails. No lemma states the dispatch order itself. Which character selects which rule is given only by the definitions of LineStart and InLine, which follow the order of tests in markpy/parser.py:71-301 and 304-426.

=== FILE: element_node.dfy ===
/** The document tree: node kinds, construction, and the structural queries
    `matches_type`, `append_child`, `find_any` and `filter` of `ElementNode`.

    Nodes are immutable values. A node's parent is not stored: a node is the
    child of the node whose `children` sequence holds it. The renderer's
    `extra` map is not modelled (the core never writes it).
 */
module ElementNode {
  import opened Results

  /** One constructor per subclass of `ElementNode`. */
  datatype Kind =
    | Document | Section | Block | Paragraph | Code | RawHTML | String
    | Alert | ListContainer | ListItem | Boxed | Image | TypewriterSpan
    | FormulaSpan | SectionTitle | Formula | BoldfaceSpan | ItalicSpan

  /** The keys the core ever stores in a node's `attrib` dict. */
  datatype Attrib = Attrib(depth: Option<nat>, level: Option<nat>, path: Option<string>)

  const NoAttrib: Attrib := Attrib(None, None, None)

  /** `content` is meaningful only for String and RawHTML leaves; it is empty otherwise. */
  datatype Node = Node(kind: Kind, attrib: Attrib, content: string, children: seq<Node>)

  predicate HasContent(k: Kind) {
    k == String || k == RawHTML
  }

  /*************************************************************************
   * Construction
   *************************************************************************/

  /** `ElementNode.__init__` with the default (empty, freshly built) attrib. */
  function NewNode(kind: Kind): (n: Node)
    ensures n.kind == kind && n.children == [] && n.content == ""
    ensures n.attrib.depth.None? && n.attrib.level.None? && n.attrib.path.None?
  {
    Node(kind, NoAttrib, "", [])
  }

  /** `StringNode(string)` and `RawHTMLNode(string)`: a leaf holding text. */
  function NewLeaf(kind: Kind, text: string): (n: Node)
    requires HasContent(kind)
    ensures n.kind == kind && n.children == [] && n.content == text
    ensures n.attrib.depth.None? && n.attrib.level.None? && n.attrib.path.None?
  {
    Node(kind, NoAttrib, text, [])
  }

  /** `AlertNode(level)`: the only attribute set is `level`. */
  function NewAlert(level: nat): (n: Node)
    ensures n.kind == Alert && n.children == [] && n.content == ""
    ensures n.attrib.level == Some(level) && n.attrib.depth.None? && n.attrib.path.None?
  {
    Node(Alert, NoAttrib.(level := Some(level)), "", [])
  }

  /** `ImageNode(path)`: the only attribute set is `path`. */
  function NewImage(path: string): (n: Node)
    ensures n.kind == Image && n.children == [] && n.content == ""
    ensures n.attrib.path == Some(path) && n.attrib.depth.None? && n.attrib.level.None?
  {
    Node(Image, NoAttrib.(path := Some(path)), "", [])
  }

  /*************************************************************************
   * matches_type and append_child
   *************************************************************************/

  /** `matches_type(types)`: scans the list of types in order. */
  function MatchesType(n: Node, types: seq<Kind>): (r: bool)
    ensures r <==> n.kind in types
  {
    if |types| == 0 then false
    else if n.kind == types[0] then true
    else MatchesType(n, types[1..])
  }

  /** `matches_type(t)` for a single type `t`, which the source wraps in a list. */
  function MatchesKind(n: Node, t: Kind): (r: bool)
    ensures r <==> n.kind == t
  {
    MatchesType(n, [t])
  }

  /** `append_child(nodes)`: the new nodes follow the existing children, in order. */
  function AppendChild(n: Node, nodes: seq<Node>): (r: Node)
    ensures r.kind == n.kind && r.attrib == n.attrib && r.content == n.content
    ensures |r.children| == |n.children| + |nodes|
    ensures forall i :: 0 <= i < |n.children| ==> r.children[i] == n.children[i]
    ensures forall j :: 0 <= j < |nodes| ==> r.children[|n.children| + j] == nodes[j]
  {
    n.(children := n.children + nodes)
  }

  /*************************************************************************
   * Pre-order traversal: the reference order for find_any and filter
   *************************************************************************/

  /** Every node of the subtree, each before its children, children left to right. */
  function PreOrder(n: Node): (r: seq<Node>)
    ensures |r| >= 1 && r[0] == n
    decreases n
  {
    [n] + PreOrderList(n.children)
  }

  function PreOrderList(cs: seq<Node>): seq<Node>
    decreases cs
  {
    if |cs| == 0 then [] else PreOrder(cs[0]) + PreOrderList(cs[1..])
  }

  /** `d` is a proper descendant of `a`. */
  ghost predicate Below(d: Node, a: Node) {
    d in PreOrderList(a.children)
  }

  /** The first node of `ns` whose kind is in `types`, if any. */
  function FirstMatch(ns: seq<Node>, types: seq<Kind>): (r: Option<Node>)
    ensures r.None? <==> forall i :: 0 <= i < |ns| ==> ns[i].kind !in types
    ensures r.Some? ==> exists i :: 0 <= i < |ns| && ns[i] == r.value && r.value.kind in types
                                    && forall j :: 0 <= j < i ==> ns[j].kind !in types
  {
    if |ns| == 0 then None
    else if MatchesType(ns[0], types) then Some(ns[0])
    else
      var r := FirstMatch(ns[1..], types);
      assert r.Some? ==> exists i :: 0 <= i < |ns[1..]| && ns[1..][i] == r.value && forall j :: 0 <= j < i ==> ns[1..][j].kind !in types;
      assert r.Some? ==> exists i :: 1 <= i < |ns| && ns[i] == r.value && forall j :: 0 <= j < i ==> ns[j].kind !in types by {
        if r.Some? {
          var i :| 0 <= i < |ns[1..]| && ns[1..][i] == r.value && forall j :: 0 <= j < i ==> ns[1..][j].kind !in types;
          assert ns[i + 1] == r.value;
          assert forall j :: 0 <= j < i + 1 ==> ns[j].kind !in types by {
            forall j | 0 <= j < i + 1 ensures ns[j].kind !in types {
              if j > 0 { assert ns[j] == ns[1..][j - 1]; }
            }
          }
        }
      }
      assert r.None? ==> forall i :: 0 <= i < |ns| ==> ns[i].kind !in types by {
        if r.None? {
          forall i | 0 <= i < |ns| ensures ns[i].kind !in types {
            if i > 0 { assert ns[i] == ns[1..][i - 1]; }
          }
        }
      }
      r
  }

  /** `Select(ns, types)`: the nodes of `ns` whose kind is in `types`, in order. */
  function Select(ns: seq<Node>, types: seq<Kind>): (r: seq<Node>)
    ensures forall x :: x in r ==> x in ns && x.kind in types
  {
    if |ns| == 0 then []
    else (if MatchesType(ns[0], types) then [ns[0]] else []) + Select(ns[1..], types)
  }

  /*************************************************************************
   * find_any
   *************************************************************************/

  /** `find_any(types)`: self if it matches, else the first hit among the children. */
  function FindAny(n: Node, types: seq<Kind>): (r: Option<Node>)
    ensures n.kind in types ==> r == Some(n)
    ensures r.Some? ==> r.value.kind in types
    decreases n
  {
    if MatchesType(n, types) then Some(n)
    else if |n.children| == 0 then None
    else FindInChildren(n.children, types)
  }

  /** The `for child in self.children` loop of `find_any`. */
  function FindInChildren(cs: seq<Node>, types: seq<Kind>): (r: Option<Node>)
    ensures r.Some? ==> r.value.kind in types
    decreases cs
  {
    if |cs| == 0 then None
    else match FindAny(cs[0], types)
      case Some(m) => Some(m)
      case None => FindInChildren(cs[1..], types)
  }

  /*************************************************************************
   * filter
   *************************************************************************/

  /** `ResultForest.ResultNode`: a reference to an original node plus the result children. */
  datatype ResultNode = ResultNode(nodePtr: Node, children: seq<ResultNode>)

  /** `filter(types)`: the trees of a `ResultForest`, as a sequence of roots. */
  function Filter(n: Node, types: seq<Kind>): (r: seq<ResultNode>)
    decreases n
  {
    var sub := FilterList(n.children, types);
    if MatchesType(n, types) then [ResultNode(n, sub)] else sub
  }

  /** The child loop of `filter`: the children's result roots, concatenated in child order. */
  function FilterList(cs: seq<Node>, types: seq<Kind>): seq<ResultNode>
    decreases cs
  {
    if |cs| == 0 then [] else Filter(cs[0], types) + FilterList(cs[1..], types)
  }

  /** The original nodes referenced by a forest, in pre-order of the forest. */
  function Flatten(f: seq<ResultNode>): seq<Node>
    decreases f
  {
    if |f| == 0 then [] else FlattenTree(f[0]) + Flatten(f[1..])
  }

  function FlattenTree(m: ResultNode): seq<Node>
    decreases m
  {
    [m.nodePtr] + Flatten(m.children)
  }

  /** Every result node below `m` references a proper descendant of the node `m` references,
      and the same holds of every result node below `m`. */
  ghost predicate KeepsAncestry(m: ResultNode)
    decreases m
  {
    && (forall d :: d in Flatten(m.children) ==> Below(d, m.nodePtr))
    && (forall c :: c in m.children ==> KeepsAncestry(c))
  }

  /*************************************************************************
   * Lemmas
   *************************************************************************/

  lemma {:induction false} PreOrderListConcat(a: seq<Node>, b: seq<Node>)
    ensures PreOrderList(a + b) == PreOrderList(a) + PreOrderList(b)
    decreases |a|
  {
    if |a| == 0 {
      assert a + b == b;
    } else {
      assert (a + b)[1..] == a[1..] + b;
      PreOrderListConcat(a[1..], b);
    }
  }

  /** `append_child` keeps the descendants a node had, in order, and adds the subtrees of
      the new children after them. */
  lemma AppendChildPreOrder(n: Node, nodes: seq<Node>)
    ensures PreOrderList(AppendChild(n, nodes).children) == PreOrderList(n.children) + PreOrderList(nodes)
    ensures forall d :: Below(d, n) ==> Below(d, AppendChild(n, nodes))
  {
    PreOrderListConcat(n.children, nodes);
  }

  /** Appending one child adds that child and then its own descendants after the
      descendants the node already had. */
  lemma AppendOneChildPreOrder(n: Node, c: Node)
    ensures PreOrderList(AppendChild(n, [c]).children) == PreOrderList(n.children) + [c] + PreOrderList(c.children)
  {
    AppendChildPreOrder(n, [c]);
    assert [c][1..] == [];
  }

  lemma {:induction false} FirstMatchConcat(a: seq<Node>, b: seq<Node>, types: seq<Kind>)
    ensures FirstMatch(a + b, types) == if FirstMatch(a, types).Some? then FirstMatch(a, types) else FirstMatch(b, types)
    decreases |a|
  {
    if |a| == 0 {
      assert a + b == b;
    } else {
      assert (a + b)[1..] == a[1..] + b;
      FirstMatchConcat(a[1..], b, types);
    }
  }

  /** `find_any` is the first match of the pre-order traversal; it is `None` exactly when
      no node of the subtree matches. */
  lemma {:induction false} FindAnyIsFirstPreOrderMatch(n: Node, types: seq<Kind>)
    ensures FindAny(n, types) == FirstMatch(PreOrder(n), types)
    ensures FindAny(n, types).None? <==> forall x :: x in PreOrder(n) ==> x.kind !in types
    decreases n
  {
    FirstMatchConcat([n], PreOrderList(n.children), types);
    if !MatchesType(n, types) {
      FindInChildrenIsFirstMatch(n.children, types);
    }
  }

  lemma {:induction false} FindInChildrenIsFirstMatch(cs: seq<Node>, types: seq<Kind>)
    ensures FindInChildren(cs, types) == FirstMatch(PreOrderList(cs), types)
    decreases cs
  {
    if |cs| > 0 {
      FindAnyIsFirstPreOrderMatch(cs[0], types);
      FindInChildrenIsFirstMatch(cs[1..], types);
      FirstMatchConcat(PreOrder(cs[0]), PreOrderList(cs[1..]), types);
    }
  }

  lemma {:induction false} SelectConcat(a: seq<Node>, b: seq<Node>, types: seq<Kind>)
    ensures Select(a + b, types) == Select(a, types) + Select(b, types)
    decreases |a|
  {
    if |a| == 0 {
      assert a + b == b;
    } else {
      assert (a + b)[1..] == a[1..] + b;
      SelectConcat(a[1..], b, types);
    }
  }

  lemma {:induction false} FlattenConcat(a: seq<ResultNode>, b: seq<ResultNode>)
    ensures Flatten(a + b) == Flatten(a) + Flatten(b)
    decreases |a|
  {
    if |a| == 0 {
      assert a + b == b;
    } else {
      assert (a + b)[1..] == a[1..] + b;
      FlattenConcat(a[1..], b);
    }
  }

  /** The `filter` forest lists exactly the matching nodes of the subtree, once each,
      in pre-order; no non-matching node appears in it. */
  lemma {:induction false} FilterIsPreOrderSelection(n: Node, types: seq<Kind>)
    ensures Flatten(Filter(n, types)) == Select(PreOrder(n), types)
    decreases n
  {
    FilterListIsPreOrderSelection(n.children, types);
    SelectConcat([n], PreOrderList(n.children), types);
    assert [n][1..] == [];
    var sub := FilterList(n.children, types);
    if MatchesType(n, types) {
      calc {
        Flatten(Filter(n, types));
        Flatten([ResultNode(n, sub)]);
        FlattenTree(ResultNode(n, sub)) + Flatten([]);
        [n] + Flatten(sub);
      }
    }
  }

  lemma {:induction false} FilterListIsPreOrderSelection(cs: seq<Node>, types: seq<Kind>)
    ensures Flatten(FilterList(cs, types)) == Select(PreOrderList(cs), types)
    decreases cs
  {
    if |cs| > 0 {
      FilterIsPreOrderSelection(cs[0], types);
      FilterListIsPreOrderSelection(cs[1..], types);
      FlattenConcat(Filter(cs[0], types), FilterList(cs[1..], types));
      SelectConcat(PreOrder(cs[0]), PreOrderList(cs[1..]), types);
    }
  }

  /** Every root of the `filter` forest references a matching node of the subtree, and a
      result node above another always references an ancestor of the other's original. */
  lemma {:induction false} FilterKeepsAncestry(n: Node, types: seq<Kind>)
    ensures forall m :: m in Filter(n, types) ==> m.nodePtr.kind in types && m.nodePtr in PreOrder(n)
    ensures forall m :: m in Filter(n, types) ==> KeepsAncestry(m)
    decreases n
  {
    var sub := FilterList(n.children, types);
    FilterListKeepsAncestry(n.children, types);
    if MatchesType(n, types) {
      FilterListIsPreOrderSelection(n.children, types);
      assert KeepsAncestry(ResultNode(n, sub));
    }
  }

  lemma {:induction false} FilterListKeepsAncestry(cs: seq<Node>, types: seq<Kind>)
    ensures forall m :: m in FilterList(cs, types) ==> m.nodePtr.kind in types && m.nodePtr in PreOrderList(cs)
    ensures forall m :: m in FilterList(cs, types) ==> KeepsAncestry(m)
    decreases cs
  {
    if |cs| > 0 {
      FilterKeepsAncestry(cs[0], types);
      FilterListKeepsAncestry(cs[1..], types);
    }
  }
}

=== FILE: element_stack.dfy ===
/** The open-node stack that turns the linear scan into a tree.

    The stack is a sequence of open frames, bottom first. A frame is a node
    holding the children completed so far; closing the top frame appends it
    as the last child of the frame beneath, so parent links stay implicit.
 */
module ElementStack {
  import opened Results
  import opened ElementNode

  type Stack = seq<Node>

  /** Some open frame has a kind in `types`. */
  ghost predicate IsOpen(st: Stack, types: seq<Kind>) {
    exists i :: 0 <= i < |st| && st[i].kind in types
  }

  /** Every frame's `depth` attribute is its position in the stack. */
  ghost predicate Stamped(st: Stack) {
    forall i :: 0 <= i < |st| ==> st[i].attrib.depth == Some(i)
  }

  /** `r` keeps the bottom `|r|` frames of `st` with the same kinds and attributes;
      only their children may have grown. */
  ghost predicate Retains(r: Stack, st: Stack) {
    && |r| <= |st|
    && forall i :: 0 <= i < |r| ==> r[i].kind == st[i].kind && r[i].attrib == st[i].attrib
  }

  /** `push(obj)`: stamps `depth` with the height before the push and makes `obj` the top. */
  function Push(st: Stack, n: Node): (r: Stack)
    ensures |r| == |st| + 1 && r[..|st|] == st
    ensures r[|st|].kind == n.kind && r[|st|].content == n.content && r[|st|].children == n.children
    ensures r[|st|].attrib == n.attrib.(depth := Some(|st|))
  {
    st + [n.(attrib := n.attrib.(depth := Some(|st|)))]
  }

  /** `top()`: the last frame; the source's assertion fails on an empty stack. */
  function Top(st: Stack): (r: Result<Node>)
    ensures r.Err? <==> |st| == 0
    ensures r.Err? ==> r.error == StackUnderflow
    ensures r.Ok? ==> r.value == st[|st| - 1]
  {
    if |st| == 0 then Err(StackUnderflow) else Ok(st[|st| - 1])
  }

  /** `top()` right after `push(obj)` is `obj`, stamped with the height before the push. */
  lemma TopPush(st: Stack, n: Node)
    ensures Top(Push(st, n)).Ok?
    ensures var t := Top(Push(st, n)).value;
      t.kind == n.kind && t.content == n.content && t.children == n.children
      && t.attrib == n.attrib.(depth := Some(|st|))
  {
  }

  /** `top()` right after a `pop()` that leaves frames is the old second frame, holding the
      old top as its last child. */
  lemma TopPop(st: Stack)
    requires |st| >= 2
    ensures Top(Pop(st).value) == Ok(AppendChild(st[|st| - 2], [st[|st| - 1]]))
  {
  }

  /** `count(types)`: 1 when some open frame matches, else 0. The loop breaks at the
      first match, so the result never exceeds 1. */
  function Count(st: Stack, types: seq<Kind>): (r: nat)
    ensures r <= 1
    ensures r == 1 <==> IsOpen(st, types)
  {
    CountFrom(st, types, 0)
  }

  /** The `for obj in self._stack` loop of `count`, from position `i` upwards. */
  function CountFrom(st: Stack, types: seq<Kind>, i: nat): (r: nat)
    requires i <= |st|
    ensures r <= 1
    ensures r == 1 <==> exists j :: i <= j < |st| && st[j].kind in types
    decreases |st| - i
  {
    if i == |st| then 0
    else if MatchesType(st[i], types) then 1
    else CountFrom(st, types, i + 1)
  }

  /** `pop()`: the top frame becomes the last child of the frame beneath it; the sole
      remaining frame is removed without being attached anywhere. */
  function Pop(st: Stack): (r: Result<Stack>)
    ensures r.Err? <==> |st| == 0
    ensures r.Err? ==> r.error == StackUnderflow
    ensures r.Ok? ==> |r.value| == |st| - 1 && Retains(r.value, st)
    ensures |st| >= 2 ==> r.Ok? && r.value[..|st| - 2] == st[..|st| - 2]
                          && r.value[|st| - 2] == AppendChild(st[|st| - 2], [st[|st| - 1]])
  {
    if |st| == 0 then Err(StackUnderflow)
    else if |st| == 1 then Ok([])
    else Ok(st[..|st| - 2] + [AppendChild(st[|st| - 2], [st[|st| - 1]])])
  }

  /** The tree obtained by closing the frames `ns` from the top down: each frame ends up
      as the last child of the frame beneath it. */
  function Nest(ns: seq<Node>): Node
    requires |ns| >= 1
    decreases |ns|
  {
    if |ns| == 1 then ns[0] else AppendChild(ns[0], [Nest(ns[1..])])
  }

  /** `r` is `st` after closing every frame above the topmost frame matching `types`:
      that frame is now the top, everything beneath it is untouched, and the closed
      frames hang beneath it as one nested chain, appended as its last child. */
  ghost predicate ClosedDownTo(st: Stack, types: seq<Kind>, r: Stack) {
    && 1 <= |r| <= |st|
    && r[|r| - 1].kind in types
    && (forall i :: |r| <= i < |st| ==> st[i].kind !in types)
    && r[..|r| - 1] == st[..|r| - 1]
    && r[|r| - 1] == (if |r| == |st| then st[|r| - 1] else AppendChild(st[|r| - 1], [Nest(st[|r|..])]))
  }

  /** `pop(until=types)` for a non-empty `types`: a no-op when nothing matching is open;
      otherwise pops until the topmost matching frame is on top. */
  function PopUntil(st: Stack, types: seq<Kind>): (r: Stack)
    ensures Count(st, types) == 0 ==> r == st
    ensures Count(st, types) == 1 ==> ClosedDownTo(st, types, r)
    ensures Retains(r, st) && (|st| >= 1 ==> |r| >= 1)
  {
    if Count(st, types) == 0 then st
    else
      var r := PopLoop(st, types);
      ClosedRetains(st, types, r);
      r
  }

  /** `pop(until)` as a whole: with the default empty `until` it is the plain `pop()`, which
      fails on an empty stack and removes exactly one frame; with any other list it is
      `pop(until=types)`, which never fails. */
  function PopWithUntil(st: Stack, until: seq<Kind>): (r: Result<Stack>)
    ensures until == [] ==> (r.Err? <==> |st| == 0) && (r.Err? ==> r.error == StackUnderflow)
    ensures until == [] && r.Ok? ==> |r.value| == |st| - 1 && Retains(r.value, st)
    ensures until == [] && |st| >= 2 ==> r.Ok? && r.value[|st| - 2] == AppendChild(st[|st| - 2], [st[|st| - 1]])
    ensures until != [] ==> r.Ok?
    ensures until != [] && Count(st, until) == 0 ==> r.value == st
    ensures until != [] && Count(st, until) == 1 ==> ClosedDownTo(st, until, r.value)
  {
    if until == [] then Pop(st) else Ok(PopUntil(st, until))
  }

  /** The closing loop of `pop(until)`: pop until the top matches. Because a matching
      frame is open, neither `top()` nor `pop()` can fail inside it. */
  function PopLoop(st: Stack, types: seq<Kind>): (r: Stack)
    requires IsOpen(st, types)
    ensures ClosedDownTo(st, types, r)
    decreases |st|
  {
    if MatchesType(st[|st| - 1], types) then st
    else
      PopKeepsOpen(st, types);
      var r := PopLoop(Pop(st).value, types);
      PopThenClose(st, types, r);
      r
  }

  lemma PopKeepsOpen(st: Stack, types: seq<Kind>)
    requires IsOpen(st, types) && st[|st| - 1].kind !in types
    ensures |st| >= 2 && IsOpen(Pop(st).value, types)
  {
    var j :| 0 <= j < |st| && st[j].kind in types;
    assert Pop(st).value[j].kind == st[j].kind;
  }

  lemma ClosedRetains(st: Stack, types: seq<Kind>, r: Stack)
    requires ClosedDownTo(st, types, r)
    ensures Retains(r, st)
  {
    var k := |r| - 1;
    forall i | 0 <= i < |r| ensures r[i].kind == st[i].kind && r[i].attrib == st[i].attrib {
      if i < k {
        assert r[i] == r[..k][i];
      }
    }
  }

  /** One iteration of the pop loop: closing the (non-matching) top frame and then closing
      down to the matching frame is closing down to it from the start. */
  lemma PopThenClose(st: Stack, types: seq<Kind>, r: Stack)
    requires |st| >= 2 && st[|st| - 1].kind !in types
    requires ClosedDownTo(Pop(st).value, types, r)
    ensures ClosedDownTo(st, types, r)
  {
    var n := |st|;
    var p := Pop(st).value;
    var k := |r| - 1;
    assert forall i :: 0 <= i < n - 1 ==> p[i].kind == st[i].kind;
    assert r[..k] == st[..k] by {
      assert p[..k] == st[..k];
    }
    if |r| < |p| {
      assert p[k] == st[k];
      assert p[k + 1..] == st[k + 1..n - 2] + [AppendChild(st[n - 2], [st[n - 1]])];
      NestFold(st[k + 1..n - 2], st[n - 2], st[n - 1]);
      assert st[k + 1..n - 2] + [st[n - 2], st[n - 1]] == st[k + 1..];
    } else {
      assert st[k + 1..] == [st[n - 1]];
    }
  }

  /** Closing the top frame first and then the chain gives the same tree as closing the
      whole chain at once. */
  lemma {:induction false} NestFold(xs: seq<Node>, y: Node, z: Node)
    ensures Nest(xs + [AppendChild(y, [z])]) == Nest(xs + [y, z])
    decreases |xs|
  {
    if |xs| == 0 {
      assert xs + [AppendChild(y, [z])] == [AppendChild(y, [z])];
      assert xs + [y, z] == [y, z];
      assert [y, z][1..] == [z];
    } else {
      assert (xs + [AppendChild(y, [z])])[1..] == xs[1..] + [AppendChild(y, [z])];
      assert (xs + [y, z])[1..] == xs[1..] + [y, z];
      NestFold(xs[1..], y, z);
    }
  }

  /** `pop(until=types)` stops at the topmost matching frame: when that frame is at
      position `k`, exactly `k + 1` frames are left. */
  lemma PopUntilStopsAt(st: Stack, types: seq<Kind>, k: nat)
    requires k < |st| && st[k].kind in types
    requires forall i :: k < i < |st| ==> st[i].kind !in types
    ensures |PopUntil(st, types)| == k + 1
  {
    assert IsOpen(st, types);
    var r := PopUntil(st, types);
    assert r[|r| - 1].kind == st[|r| - 1].kind;
  }

  /** A second `pop(until=types)` with the same types changes nothing. */
  lemma PopUntilIdempotent(st: Stack, types: seq<Kind>)
    ensures PopUntil(PopUntil(st, types), types) == PopUntil(st, types)
  {
    var r := PopUntil(st, types);
    if Count(st, types) == 1 {
      assert r[|r| - 1].kind in types;
      assert IsOpen(r, types);
    }
  }
}

=== FILE: parser.dfy ===
/** `Parser.parse_document`: preprocessing, the scan loop and the final closing
    of the stack.

    The loop is a recursive function whose measure is the pair (characters
    left, 1 in line-start mode / 0 in-line): the invariant of the scan shows
    that every step lowers it. Its result is the Document with every frame
    still open at the end nested beneath it.
 */
module Parser {
  import opened Results
  import opened ElementNode
  import opened ElementStack
  import opened Text
  import opened ScanRules
  import opened ScanInvariant

  /** The loop `while chid < len(s)`. */
  function Run(sc: Scanner): (r: Result<Scanner>)
    requires Inv(sc)
    ensures Safe(r)
    ensures r.Ok? ==> Inv(r.value) && r.value.s == sc.s && r.value.chid == |sc.s|
    decreases |sc.s| - sc.chid, if sc.newLine then 1 else 0
  {
    if sc.chid == |sc.s| then Ok(sc)
    else
      StepSound(sc);
      var next :- Step(sc);
      Run(next)
  }

  /** `pop(until=DocumentNode)` followed by `top()`. On the stack the scan leaves, the
      result is the Document with the open frames nested beneath it, each as the last
      child of the frame below. */
  function Finish(st: Stack): (r: Result<Node>)
    ensures WellFormed(st) ==> r == Ok(Nest(st))
    ensures |st| == 0 ==> r == Err(StackUnderflow)
  {
    WellFormedClosesToRoot(st);
    Top(PopUntil(st, [Document]))
  }

  /** On a well-formed stack only the bottom frame is a Document, so closing down to it
      leaves that single frame, holding the nest of all the others. */
  lemma WellFormedClosesToRoot(st: Stack)
    ensures WellFormed(st) ==> PopUntil(st, [Document]) == [Nest(st)]
  {
    if WellFormed(st) {
      assert st[0].kind in [Document];
      var r := PopUntil(st, [Document]);
      assert r[|r| - 1].kind == st[|r| - 1].kind;
      assert |r| == 1;
    }
  }

  /** The stack the scan starts from: the Document alone. */
  function Start(s: string): (sc: Scanner)
    ensures Inv(sc) && sc.s == s && sc.chid == 0 && sc.newLine
    ensures sc.stack == [Stamp(NewNode(Document), 0)]
  {
    Scanner(s, 0, true, Push([], NewNode(Document)))
  }

  /** `parse_document(s)`: the root of the document tree, or why the input is rejected.
      The root is always the Document pushed first and the only Document in the tree, and
      the scan never underflows the stack or reads a missing `depth`. */
  function Parse(text: string): (r: Result<Node>)
    ensures r.Ok? ==> r.value.kind == Document && r.value.attrib.depth == Some(0)
    ensures r.Ok? ==> forall d :: d in PreOrderList(r.value.children) ==> d.kind != Document
    ensures Safe(r)
  {
    var done :- Run(Start(Preprocess(text)));
    NestRoot(done.stack);
    NestNoInnerDocument(done.stack);
    Finish(done.stack)
  }

  /** Closing a stack whose frames above the bottom are not Documents, and hold none,
      builds a tree with no Document below its root. */
  lemma {:induction false} NestNoInnerDocument(ns: seq<Node>)
    requires |ns| >= 1 && NoInnerDocument(ns)
    requires forall i :: 1 <= i < |ns| ==> ns[i].kind != Document
    ensures forall d :: d in PreOrderList(Nest(ns).children) ==> d.kind != Document
    decreases |ns|
  {
    if |ns| > 1 {
      var t := ns[1..];
      assert forall i :: 0 <= i < |t| ==> t[i] == ns[i + 1];
      NestNoInnerDocument(t);
      NestRoot(t);
      AppendOneChildPreOrder(ns[0], Nest(t));
    }
  }

  lemma NestRoot(ns: seq<Node>)
    requires |ns| >= 1
    ensures Nest(ns).kind == ns[0].kind && Nest(ns).attrib == ns[0].attrib
  {
  }

  /*************************************************************************
   * Preprocessing
   *************************************************************************/

  /** Preprocessing keeps the number of lines and strips only trailing whitespace: each
      line of the result is a prefix of the original line, and what was removed is all
      whitespace. */
  lemma PreprocessLines(text: string)
    ensures var lines := Split(text); var out := Split(Preprocess(text));
      && |out| == |lines|
      && forall i :: 0 <= i < |lines| ==> out[i] == RStrip(lines[i])
  {
    var lines := Split(text);
    var stripped := seq(|lines|, i requires 0 <= i < |lines| => RStrip(lines[i]));
    forall i | 0 <= i < |stripped| ensures '\n' !in stripped[i] {
      assert stripped[i] <= lines[i];
    }
    SplitJoin(stripped);
  }

  /** Preprocessing twice is preprocessing once. */
  lemma PreprocessIdempotent(text: string)
    ensures Preprocess(Preprocess(text)) == Preprocess(text)
  {
    PreprocessLines(text);
    var out := Split(Preprocess(text));
    var again := seq(|out|, i requires 0 <= i < |out| => RStrip(out[i]));
    forall i | 0 <= i < |out| ensures again[i] == out[i] {
      RStripIdempotent(Split(text)[i]);
    }
    assert again == out;
    JoinSplit(Preprocess(text));
  }

  /** Text whose lines have no trailing whitespace is left unchanged. */
  lemma PreprocessClean(text: string)
    requires forall i :: 0 <= i < |Split(text)| ==> RStrip(Split(text)[i]) == Split(text)[i]
    ensures Preprocess(text) == text
  {
    var lines := Split(text);
    assert seq(|lines|, i requires 0 <= i < |lines| => RStrip(lines[i])) == lines;
    JoinSplit(text);
  }
}

=== FILE: results.dfy ===
/** Failure values of the parser and the small wrapper types used throughout.

    Every way the Python implementation can abort (a failed `assert`, an
    `IndexError` from `s[i]`, a `ValueError` from `str.index`, a `KeyError`
    from `attrib['depth']`, `NotImplementedError`) becomes one `Error` value.
 */
module Results {

  /** Why a parse was rejected. */
  datatype Error =
    | StackUnderflow    // `top()` or `pop()` on an empty open-node stack
    | MissingKey        // `attrib['depth']` read on a node that was never pushed
    | BadHeadingDepth   // a heading that skips a section level
    | BadCodeFence      // a line starting with `~` that does not start with `~~~`
    | NoOpenBlock       // an end-of-block marker with no Block open
    | BadBlockEnd       // an end-of-block marker not followed by a newline
    | StringNotOnTop    // text arrives while an open String is not the top node
    | MissingDelimiter  // the closing delimiter searched for does not occur
    | IndexOutOfRange   // a character read past the end of the input
    | Unimplemented     // a line-start character with no rule for it

  datatype Option<+T> = None | Some(value: T)

  /** A failure-compatible result: use with `:-` to propagate the first error. */
  datatype Result<+T> = Ok(value: T) | Err(error: Error) {

    predicate IsFailure() {
      Err?
    }

    function PropagateFailure<U>(): Result<U>
      requires Err?
    {
      Err(error)
    }

    function Extract(): T
      requires Ok?
    {
      value
    }
  }
}

=== FILE: rule_properties.dfy ===
/** What the individual scanning rules do to the document under construction,
    stated on a well-formed stack.
 */
module RuleProperties {
  import opened Results
  import opened ElementNode
  import opened ElementStack
  import opened Text
  import opened ScanRules
  import opened ScanInvariant

  /** Opening a section for a heading of depth `n` fails exactly on a skipped level: when,
      after closing the deeper sections, the frame on top is more than one level above
      the heading. It never fails for depth 1. */
  lemma SectionFails(st: Stack, n: nat)
    requires WellFormed(st) && n >= 1
    ensures var r := OpenSection(st, n);
      && (r.Err? ==> r.error == BadHeadingDepth)
      && (n == 1 ==> r.Ok?)
    ensures var c := CloseSections(PopUntil(st, [Section]), n);
      c.Ok? && (OpenSection(st, n).Ok? <==> |c.value| == n)
  {
    SectionBaseSound(st, n);
  }

  /** A heading one level below the innermost open Section, which sits at height `n - 1`,
      is accepted. */
  lemma SubsectionOpens(st: Stack, n: nat)
    requires WellFormed(st) && n >= 1 && n - 1 < |st| && st[n - 1].kind == Section
    requires forall i :: n <= i < |st| ==> st[i].kind != Section
    ensures OpenSection(st, n).Ok?
  {
    PopUntilStopsAt(st, [Section], n - 1);
    PopUntilWellFormed(st, [Section]);
    var below := PopUntil(st, [Section]);
    assert below[n - 1].attrib.depth == Some(n - 1) by {
      assert Stamped(below);
    }
    assert CloseSections(below, n) == Ok(below);
    assert SectionBase(st, n) == Ok(below);
  }

  /** On success exactly `n` frames lie below the new Section, whose `depth` is therefore
      `n`: a Section's depth is its heading level. Its SectionTitle and Paragraph are
      above it, and the frames below are frames of the old stack. */
  lemma SectionDepthIsLevel(st: Stack, n: nat)
    requires WellFormed(st) && n >= 1
    ensures var r := OpenSection(st, n);
      r.Ok? ==> |r.value| == n + 3 && r.value[n].kind == Section && r.value[n].attrib.depth == Some(n)
                && r.value[n + 1].kind == SectionTitle && r.value[n + 2].kind == Paragraph
  {
    SectionBaseHeight(st, n);
    var base := SectionBase(st, n);
    if base.Ok? {
      HeadingAtLevel(base.value, n);
      assert OpenSection(st, n) == Ok(OpenHeading(base.value));
    }
  }

  /** The frames a heading opens on `n` closed frames, read off at their positions. */
  lemma HeadingAtLevel(closed: Stack, n: nat)
    requires |closed| == n
    ensures var r := OpenHeading(closed);
      |r| == n + 3 && r[n].kind == Section && r[n].attrib.depth == Some(n)
      && r[n + 1].kind == SectionTitle && r[n + 2].kind == Paragraph
  {
    HeadingFrames(closed);
  }

  lemma SectionKeepsFrames(st: Stack, n: nat)
    requires WellFormed(st) && n >= 1
    ensures var r := OpenSection(st, n); r.Ok? ==> |r.value| == n + 3 && Retains(r.value[..n], st)
  {
    SectionBaseHeight(st, n);
    var base := SectionBase(st, n);
    if base.Ok? {
      HeadingFrames(base.value);
    }
  }

  /** A heading of `n` equal signs moves past the run and opens its section at depth `n`;
      it fails exactly when that does, and never for a single `=`. */
  lemma HeadingOpensSection(sc: Scanner, n: nat)
    requires WellFormed(sc.stack) && sc.chid < |sc.s| && sc.s[sc.chid] == '='
    requires RunLength(sc.s, sc.chid, '=') == Ok(n)
    ensures ScanHeading(sc).Ok? <==> OpenSection(sc.stack, n).Ok?
    ensures ScanHeading(sc).Err? ==> ScanHeading(sc).error == BadHeadingDepth
    ensures n == 1 ==> ScanHeading(sc).Ok?
    ensures ScanHeading(sc).Ok? ==>
      ScanHeading(sc).value.chid == sc.chid + n && ScanHeading(sc).value.stack == OpenSection(sc.stack, n).value
  {
    SectionFails(sc.stack, n);
  }

  /** A run of `=` that reaches the end of the input reads past it. */
  lemma HeadingAtEndFails(sc: Scanner)
    requires sc.chid < |sc.s| && forall j :: sc.chid <= j < |sc.s| ==> sc.s[j] == '='
    ensures ScanHeading(sc).Err? && ScanHeading(sc).error == IndexOutOfRange
  {
  }

  /** A capture changes only the frame on top of `below`, and that frame only by one more
      child after the ones it had. */
  lemma CaptureKeepsFrames(sc: Scanner, below: Stack, kind: Kind, textFrom: nat, searchFrom: nat, endTag: string)
    requires |below| >= 1
    ensures var r := Capture(sc, below, NewNode(kind), textFrom, searchFrom, endTag); r.Ok? ==>
      var k := |below|; var st := r.value.stack; var m := |below[k - 1].children|;
      && |st| == k && st[..k - 1] == below[..k - 1] && st[k - 1].kind == below[k - 1].kind
      && |st[k - 1].children| == m + 1 && st[k - 1].children[..m] == below[k - 1].children
  {
    CaptureCloses(sc, below, NewNode(kind), textFrom, searchFrom, endTag);
  }

  /** The child a capture adds is a node of the captured kind whose only child is a String
      holding the raw text from `textFrom` up to the delimiter, unescaped (`Slice` is the
      source's `s[textFrom:end]`). */
  lemma CaptureAddsLeaf(sc: Scanner, below: Stack, kind: Kind, textFrom: nat, searchFrom: nat, endTag: string)
    requires |below| >= 1
    ensures var r := Capture(sc, below, NewNode(kind), textFrom, searchFrom, endTag); r.Ok? ==>
      var k := |below|; var leaf := r.value.stack[k - 1].children[|below[k - 1].children|];
      && leaf.kind == kind && |leaf.children| == 1 && leaf.children[0].kind == String
      && leaf.children[0].content == Slice(sc.s, textFrom, r.value.chid - |endTag|)
  {
    CaptureCloses(sc, below, NewNode(kind), textFrom, searchFrom, endTag);
  }

  /** With no Formula open (as NoFormulaOpen shows of every scan state), a display formula
      is rejected exactly when no delimiter is left at or after the character after `chid`,
      and otherwise stops just past the first one. */
  lemma DisplayFormulaFinds(sc: Scanner, endTag: string)
    requires Count(sc.stack, [Formula]) == 0
    ensures var r := ScanDisplayFormula(sc, endTag);
      && (r.Err? <==> NoneFrom(sc.s, endTag, sc.chid + 1))
      && (r.Err? ==> r.error == MissingDelimiter)
  {
    var below := PopUntil(sc.stack, [Block]);
    DisplayFormulaIsCapture(sc, endTag, below);
    CaptureFinds(sc, below, NewNode(Formula), sc.chid + 1, sc.chid + 1, endTag);
  }

  lemma DisplayFormulaStopsAtFirst(sc: Scanner, endTag: string, end: nat)
    requires Count(sc.stack, [Formula]) == 0 && Index(sc.s, endTag, sc.chid + 1) == Ok(end)
    ensures FirstAt(sc.s, endTag, sc.chid + 1, end)
    ensures ScanDisplayFormula(sc, endTag).Ok? && ScanDisplayFormula(sc, endTag).value.chid == end + |endTag|
  {
    var below := PopUntil(sc.stack, [Block]);
    DisplayFormulaIsCapture(sc, endTag, below);
  }

  /** A display formula closes everything above the innermost Block and adds to that
      Block one Formula; its text is stated by CaptureAddsLeaf. */
  lemma DisplayFormulaAddsFormula(sc: Scanner, endTag: string)
    requires WellFormed(sc.stack)
    ensures var r := ScanDisplayFormula(sc, endTag); r.Ok? ==>
      var below := PopUntil(sc.stack, [Block]); var k := |below|;
      && k >= 1 && |r.value.stack| == k && |r.value.stack[k - 1].children| == |below[k - 1].children| + 1
      && r.value.stack[k - 1].children[|below[k - 1].children|].kind == Formula
  {
    var below := PopUntil(sc.stack, [Block]);
    PopUntilWellFormed(sc.stack, [Block]);
    NoFormulaOpen(sc.stack);
    DisplayFormulaIsCapture(sc, endTag, below);
    CaptureKeepsFrames(sc, below, Formula, sc.chid + 1, sc.chid + 1, endTag);
    CaptureAddsLeaf(sc, below, Formula, sc.chid + 1, sc.chid + 1, endTag);
  }

  /** Likewise an inline formula searches from the character after `chid`. */
  lemma InlineFormulaFinds(sc: Scanner, endTag: string)
    requires Count(sc.stack, [FormulaSpan]) == 0
    ensures var r := ScanInlineFormula(sc, endTag);
      && (r.Err? <==> NoneFrom(sc.s, endTag, sc.chid + 1))
      && (r.Err? ==> r.error == MissingDelimiter)
  {
    var below := PopUntil(sc.stack, InlineScopes);
    InlineFormulaIsCapture(sc, endTag, below);
    CaptureFinds(sc, below, NewNode(FormulaSpan), sc.chid + 1, sc.chid + 1, endTag);
  }

  lemma InlineFormulaStopsAtFirst(sc: Scanner, endTag: string, end: nat)
    requires Count(sc.stack, [FormulaSpan]) == 0 && Index(sc.s, endTag, sc.chid + 1) == Ok(end)
    ensures FirstAt(sc.s, endTag, sc.chid + 1, end)
    ensures ScanInlineFormula(sc, endTag).Ok? && ScanInlineFormula(sc, endTag).value.chid == end + |endTag|
  {
    var below := PopUntil(sc.stack, InlineScopes);
    InlineFormulaIsCapture(sc, endTag, below);
  }

  /** An inline formula adds one FormulaSpan to the innermost Paragraph or span. */
  lemma InlineFormulaAddsSpan(sc: Scanner, endTag: string)
    requires WellFormed(sc.stack)
    ensures var r := ScanInlineFormula(sc, endTag); r.Ok? ==>
      var below := PopUntil(sc.stack, InlineScopes); var k := |below|;
      && k >= 1 && |r.value.stack| == k && |r.value.stack[k - 1].children| == |below[k - 1].children| + 1
      && r.value.stack[k - 1].children[|below[k - 1].children|].kind == FormulaSpan
  {
    var below := PopUntil(sc.stack, InlineScopes);
    PopUntilWellFormed(sc.stack, InlineScopes);
    NoFormulaOpen(sc.stack);
    InlineFormulaIsCapture(sc, endTag, below);
    CaptureKeepsFrames(sc, below, FormulaSpan, sc.chid + 1, sc.chid + 1, endTag);
    CaptureAddsLeaf(sc, below, FormulaSpan, sc.chid + 1, sc.chid + 1, endTag);
  }

  /** A well-opened code fence is a capture onto the innermost Block of the text after the
      fence, up to the next `~~~` followed by a newline, searched from the second `~`. */
  lemma CodeIsCapture(sc: Scanner)
    requires Slice(sc.s, sc.chid, sc.chid + 3) == "~~~"
    ensures ScanCode(sc) == Capture(sc, PopUntil(sc.stack, [Block]), NewNode(Code), sc.chid + 3, sc.chid + 1, "~~~\n")
  {
  }

  /** A code block is rejected exactly when its fence is not `~~~` or no `~~~` line end
      follows the fence's first character. */
  lemma CodeFinds(sc: Scanner)
    requires Slice(sc.s, sc.chid, sc.chid + 3) == "~~~"
    ensures var r := ScanCode(sc);
      && (r.Err? <==> NoneFrom(sc.s, "~~~\n", sc.chid + 1))
      && (r.Err? ==> r.error == MissingDelimiter)
  {
    CodeIsCapture(sc);
    CaptureFinds(sc, PopUntil(sc.stack, [Block]), NewNode(Code), sc.chid + 3, sc.chid + 1, "~~~\n");
  }

  /** Otherwise the scan resumes just past the closing fence and its newline. */
  lemma CodeStopsAtFirst(sc: Scanner, end: nat)
    requires Slice(sc.s, sc.chid, sc.chid + 3) == "~~~" && Index(sc.s, "~~~\n", sc.chid + 1) == Ok(end)
    ensures FirstAt(sc.s, "~~~\n", sc.chid + 1, end)
    ensures ScanCode(sc).Ok? && ScanCode(sc).value.chid == end + 4
  {
    CodeIsCapture(sc);
  }

  /** A code block adds to the innermost Block one Code node whose only child is a String
      holding, verbatim, the text between the opening fence and the closing one. */
  lemma CodeAddsCode(sc: Scanner)
    requires |sc.stack| >= 1
    ensures var r := ScanCode(sc); r.Ok? ==>
      var below := PopUntil(sc.stack, [Block]); var k := |below|;
      && k >= 1 && |r.value.stack| == k && |r.value.stack[k - 1].children| == |below[k - 1].children| + 1
      && var leaf := r.value.stack[k - 1].children[|below[k - 1].children|];
      && leaf.kind == Code && |leaf.children| == 1 && leaf.children[0].kind == String
      && leaf.children[0].content == Slice(sc.s, sc.chid + 3, r.value.chid - 4)
  {
    var below := PopUntil(sc.stack, [Block]);
    if Slice(sc.s, sc.chid, sc.chid + 3) == "~~~" {
      CodeIsCapture(sc);
      CaptureKeepsFrames(sc, below, Code, sc.chid + 3, sc.chid + 1, "~~~\n");
      CaptureAddsLeaf(sc, below, Code, sc.chid + 3, sc.chid + 1, "~~~\n");
    }
  }

  /** `$$` at line start is a display formula whose search for the closing `$$` starts one
      character early, at the second `$` (the cursor is on the first), so `$$$` is already
      a complete, empty formula. */
  lemma TripleDollarClosesAtOnce(sc: Scanner)
    requires Shaped(sc.stack) && sc.chid + 2 < |sc.s|
    requires sc.s[sc.chid] == '$' && sc.s[sc.chid + 1] == '$' && sc.s[sc.chid + 2] == '$'
    ensures ScanDollar(sc).Ok? && ScanDollar(sc).value.chid == sc.chid + 3
  {
    NoFormulaOpen(sc.stack);
    assert sc.s[sc.chid + 1..sc.chid + 3] == "$$";
    assert Occurs(sc.s, "$$", sc.chid + 1);
    CaptureFinds(sc, PopUntil(sc.stack, [Block]), NewNode(Formula), sc.chid + 1, sc.chid + 1, "$$");
  }

  /** A `%` line succeeds exactly when a Block is open and a newline follows the `%`; it
      then closes the innermost Block into the frame beneath it and opens a fresh, empty
      Block in its place, at the same height. */
  lemma EndOfBlockReopens(sc: Scanner)
    requires |sc.stack| >= 1 && sc.stack[0].kind == Document
    ensures var r := ScanEndOfBlock(sc);
      r.Err? ==> r.error == NoOpenBlock || r.error == IndexOutOfRange || r.error == BadBlockEnd
    ensures ScanEndOfBlock(sc).Ok? <==>
      Count(sc.stack, [Block]) == 1 && sc.chid + 1 < |sc.s| && sc.s[sc.chid + 1] == '\n'
    ensures var r := ScanEndOfBlock(sc); r.Ok? ==>
      var b := PopUntil(sc.stack, [Block]); var st := r.value.stack;
      && |b| >= 2 && b[|b| - 1].kind == Block && |st| == |b|
      && st[..|b| - 2] == b[..|b| - 2]
      && st[|b| - 2] == AppendChild(b[|b| - 2], [b[|b| - 1]])
      && st[|b| - 1] == Stamp(NewNode(Block), |b| - 1)
  {
    var r := ScanEndOfBlock(sc);
    if r.Ok? {
      PopUntilAboveBottom(sc.stack, [Block]);
      EndOfBlockResult(sc);
      ReopenTop(PopUntil(sc.stack, [Block]));
    }
  }

  /** Closing the top frame and pushing a fresh Block puts the Block where the closed
      frame was. */
  lemma ReopenTop(b: Stack)
    requires |b| >= 2
    ensures var st := Push(Pop(b).value, NewNode(Block));
      && |st| == |b| && st[..|b| - 2] == b[..|b| - 2]
      && st[|b| - 2] == AppendChild(b[|b| - 2], [b[|b| - 1]])
      && st[|b| - 1] == Stamp(NewNode(Block), |b| - 1)
  {
    var p := Pop(b).value;
    assert Push(p, NewNode(Block))[..|b| - 2] == p[..|b| - 2];
  }

  /** An image closes everything above the enclosing Block and opens an Image whose `path`
      is the text between the two carets, with a Paragraph for its caption. */
  lemma ImageOpensFrame(sc: Scanner, end: nat)
    requires Index(sc.s, "^", sc.chid + 1) == Ok(end)
    ensures var r := ScanImage(sc);
      r.Ok? && r.value.chid == end + 1 &&
      var st := r.value.stack; var below := PopUntil(sc.stack, [Block]);
      && |st| == |below| + 2 && st[..|below|] == below
      && st[|below|].kind == Image && st[|below| + 1].kind == Paragraph
      && st[|below|].attrib.path == Some(sc.s[sc.chid + 1..end])
  {
    SliceInRange(sc.s, sc.chid + 1, end);
    ImageResult(sc);
    ImageStack(sc);
    ImageFrame(PopUntil(sc.stack, [Block]), Slice(sc.s, sc.chid + 1, end));
  }

  /** The two frames an image opens on `below`. */
  lemma ImageFrame(below: Stack, path: string)
    ensures var st := PushWithParagraph(below, NewImage(path));
      && |st| == |below| + 2 && st[..|below|] == below
      && st[|below|].kind == Image && st[|below| + 1].kind == Paragraph
      && st[|below|].attrib.path == Some(path)
  {
  }

  /** An alert closes everything above the enclosing Block and opens an Alert whose `level`
      is the number of `!` consumed, with a Paragraph for its text. */
  lemma AlertOpensFrame(sc: Scanner)
    ensures var r := ScanAlert(sc);
      r.Ok? ==> var st := r.value.stack; var below := PopUntil(sc.stack, [Block]);
        && |st| == |below| + 2 && st[..|below|] == below
        && st[|below|].kind == Alert && st[|below| + 1].kind == Paragraph
        && st[|below|].attrib.level == Some(r.value.chid - sc.chid)
  {
  }

  /** A list item with no ListContainer open closes everything above the nearest Boxed or
      Block and opens a ListContainer there, holding the new ListItem and its Paragraph. */
  lemma ListItemOpensContainer(sc: Scanner)
    requires Count(sc.stack, [ListContainer]) == 0
    ensures var below := PopUntil(sc.stack, [Boxed, Block]); var st := ScanListItem(sc).stack;
      && |st| == |below| + 3 && st[..|below|] == below
      && st[|below|].kind == ListContainer && st[|below|].children == []
      && st[|below| + 1].kind == ListItem && st[|below| + 2].kind == Paragraph
  {
    var below := PopUntil(sc.stack, [Boxed, Block]);
    var base := Push(below, NewNode(ListContainer));
    var st := PushWithParagraph(base, NewNode(ListItem));
    assert st[..|below|] == base[..|below|];
  }

  /** A list item while a ListContainer and a ListItem are open closes the latest item into
      the frame beneath it and opens the new item at the same height. */
  lemma ListItemReplacesItem(sc: Scanner)
    requires |sc.stack| >= 1 && sc.stack[0].kind == Document
    requires Count(sc.stack, [ListContainer]) == 1 && Count(sc.stack, [ListItem]) == 1
    ensures var b := PopUntil(sc.stack, [ListItem]); var st := ScanListItem(sc).stack;
      && |b| >= 2 && b[|b| - 1].kind == ListItem && |st| == |b| + 1
      && st[..|b| - 2] == b[..|b| - 2]
      && st[|b| - 2] == AppendChild(b[|b| - 2], [b[|b| - 1]])
      && st[|b| - 1].kind == ListItem && st[|b| - 1].children == []
      && st[|b|].kind == Paragraph
  {
    PopUntilAboveBottom(sc.stack, [ListItem]);
    var b := PopUntil(sc.stack, [ListItem]);
    assert ScanListItem(sc).stack == PushWithParagraph(Pop(b).value, NewNode(ListItem));
    ReplaceTop(b, NewNode(ListItem));
  }

  /** Closing the top frame and opening `outer` with its Paragraph puts `outer` where the
      closed frame was. */
  lemma ReplaceTop(b: Stack, outer: Node)
    requires |b| >= 2
    ensures var st := PushWithParagraph(Pop(b).value, outer);
      && |st| == |b| + 1 && st[..|b| - 2] == b[..|b| - 2]
      && st[|b| - 2] == AppendChild(b[|b| - 2], [b[|b| - 1]])
      && st[|b| - 1].kind == outer.kind && st[|b| - 1].children == outer.children
      && st[|b|].kind == Paragraph
  {
    var p := Pop(b).value;
    var st := PushWithParagraph(p, outer);
    assert st[..|b| - 2] == p[..|b| - 2];
  }

  /** Ordinary text: with no String open it opens a Paragraph if needed and starts a String
      holding the text; with a String open it extends that String, which must be on top of
      the stack with a Paragraph open. */
  lemma TextStartsString(st: Stack, text: string)
    requires WellFormed(st) && Count(st, [String]) == 0
    ensures var r := TextStack(st, text);
      r.Ok? && var top := r.value[|r.value| - 1];
      && top.kind == String && top.content == text && top.children == []
      && (Count(st, [Paragraph]) == 1 ==> r.value[..|r.value| - 1] == st)
      && (Count(st, [Paragraph]) == 0 ==> |r.value| == |st| + 2 && r.value[..|st|] == st
                                          && r.value[|st|].kind == Paragraph)
  {
    WithParagraph(st);
    var withPara := if Count(st, [Paragraph]) == 0 then Push(st, NewNode(Paragraph)) else st;
    var r := Push(withPara, NewLeaf(String, text));
    if Count(st, [Paragraph]) == 0 {
      assert r[..|st|] == withPara[..|st|];
    }
  }

  lemma TextExtendsString(st: Stack, text: string)
    requires Count(st, [String]) == 1
    ensures var r := TextStack(st, text);
      && (r.Ok? <==> Count(st, [Paragraph]) == 1 && st[|st| - 1].kind == String)
      && (r.Err? ==> r.error == StringNotOnTop)
      && (r.Ok? ==> var n := |st|;
                    && |r.value| == n && r.value[..n - 1] == st[..n - 1]
                    && r.value[n - 1] == st[n - 1].(content := st[n - 1].content + text))
  {
    var j :| 0 <= j < |st| && st[j].kind in [String];
    if Count(st, [Paragraph]) == 0 {
      var withPara := Push(st, NewNode(Paragraph));
      assert withPara[j] == st[j];
      assert Count(withPara, [String]) == 1;
      assert TextStack(st, text) == AppendText(withPara, text);
    } else {
      assert TextStack(st, text) == AppendText(st, text);
    }
  }

  /** In-line, a token that is not a backslash pair is dispatched on as one character. */
  lemma StepInLine(sc: Scanner)
    requires !sc.newLine && sc.chid < |sc.s| && sc.s[sc.chid] != '\\'
    ensures Step(sc) == InLine(sc, [sc.s[sc.chid]])
  {
    assert Token(sc.s, sc.chid) == Ok(([sc.s[sc.chid]], sc.chid));
  }

  /** A token none of the in-line rules claims is ordinary text. */
  lemma InLineText(sc: Scanner, ch: string)
    requires ch !in ["$", "\\(", "*", "/", "+", "\n"]
    ensures InLine(sc, ch) == ScanText(sc, ch)
  {
  }

  /** A `->` at line start is skipped and the scan goes on in-line, so the text after it
      continues the String left open by the previous line (see `PlainCharExtendsString`). */
  lemma ContinuationSkipsMarker(sc: Scanner)
    requires sc.newLine && sc.chid + 1 < |sc.s| && sc.s[sc.chid] == '-' && sc.s[sc.chid + 1] == '>'
    ensures Step(sc) == Ok(sc.(chid := sc.chid + 2, newLine := false))
  {
    assert Token(sc.s, sc.chid) == Ok(("-", sc.chid));
  }

  /** In-line, an ordinary character is appended to the String on top. */
  lemma PlainCharExtendsString(sc: Scanner)
    requires !sc.newLine && sc.chid < |sc.s| && sc.s[sc.chid] !in "$*/+\n\\"
    requires Count(sc.stack, [Paragraph]) == 1 && |sc.stack| >= 2 && sc.stack[|sc.stack| - 1].kind == String
    ensures var n := |sc.stack|;
      Step(sc) == Ok(sc.(chid := sc.chid + 1, stack := sc.stack[..n - 1]
                         + [sc.stack[n - 1].(content := sc.stack[n - 1].content + [sc.s[sc.chid]])]))
  {
    var c := sc.s[sc.chid];
    StepInLine(sc);
    InLineText(sc, [c]);
    assert Count(sc.stack, [String]) == 1;
    assert Escape([c]) == [c];
    TextExtendsString(sc.stack, [c]);
  }

  /** A backslash at the end of a line escapes the newline: the pair `\` newline is an
      ordinary token, kept as two characters, so a newline enters the String's text and the
      scan stays in-line. */
  lemma EscapedNewlineJoinsString(sc: Scanner)
    requires !sc.newLine && sc.chid + 1 < |sc.s|
    requires sc.s[sc.chid] == '\\' && sc.s[sc.chid + 1] == '\n'
    requires Count(sc.stack, [Paragraph]) == 1 && |sc.stack| >= 2 && sc.stack[|sc.stack| - 1].kind == String
    ensures Step(sc).Ok? && !Step(sc).value.newLine && Step(sc).value.chid == sc.chid + 2
    ensures var st := Step(sc).value.stack; var n := |sc.stack|;
      st == sc.stack[..n - 1] + [sc.stack[n - 1].(content := sc.stack[n - 1].content + "\\\n")]
  {
    assert Token(sc.s, sc.chid) == Ok(("\\\n", sc.chid + 1));
    assert Escape("\\\n") == "\\\n";
    var mid := sc.(chid := sc.chid + 1);
    assert Step(sc) == InLine(mid, "\\\n");
    InLineText(mid, "\\\n");
    assert Count(sc.stack, [String]) == 1;
    TextExtendsString(sc.stack, "\\\n");
  }

  /** Outside any section, with no Block open, blank lines push a Block directly onto the
      frame on top, whatever its kind: after preamble text that frame is the String. */
  lemma BlankLinesOutsideSection(st: Stack)
    requires |st| >= 1 && st[|st| - 1].kind != Document
    requires Count(st, [Block]) == 0 && Count(st, [Section]) == 0
    ensures BlankLinesStack(st) == Ok(Push(st, NewNode(Block)))
    ensures var r := BlankLinesStack(st).value;
      r[..|st|] == st && r[|st|].kind == Block && r[|st|].children == []
  {
  }

  /** A newline at line start whose run of newlines reaches the end of the input reads past
      the end: input that ends in a blank line is rejected. */
  lemma BlankRunToEndFails(sc: Scanner)
    requires sc.newLine && sc.chid < |sc.s|
    requires forall j :: sc.chid <= j < |sc.s| ==> sc.s[j] == '\n'
    ensures Step(sc) == Err(IndexOutOfRange)
  {
    assert Token(sc.s, sc.chid) == Ok(("\n", sc.chid));
  }
}

=== FILE: scan_invariant.dfy ===
/** The invariant of the scan loop and what each rule guarantees under it.

    Throughout the scan the open-node stack keeps the Document at the bottom
    and nowhere else, no frame holds a Document among its descendants, every
    frame's `depth` equals its position, and no Formula or FormulaSpan frame
    stays open (both are closed in the step that opens them). From this
    follow: the stack never underflows, no `depth`
    lookup fails, every step moves the cursor forward or leaves line-start
    mode, and the two branches of the formula rules that would not move the
    cursor are never taken.
 */
module ScanInvariant {
  import opened Results
  import opened ElementNode
  import opened ElementStack
  import opened Text
  import opened ScanRules

  /** Kinds that may be open above the bottom frame. */
  predicate Inner(k: Kind) {
    k != Document && k != Formula && k != FormulaSpan
  }

  /** The frames themselves: the Document at the bottom and nowhere else, each frame's
      `depth` its position, and no Formula or FormulaSpan open. */
  ghost predicate Shaped(st: Stack) {
    && |st| >= 1
    && st[0].kind == Document
    && Stamped(st)
    && forall i :: 1 <= i < |st| ==> Inner(st[i].kind)
  }

  /** No Document occurs among the descendants of any open frame, so the Document at the
      bottom stays the only one in the tree. */
  ghost predicate NoInnerDocument(st: Stack) {
    forall i :: 0 <= i < |st| ==> HoldsNoDocument(st[i])
  }

  /** No descendant of `n` is a Document. */
  ghost predicate HoldsNoDocument(n: Node) {
    forall d :: d in PreOrderList(n.children) ==> d.kind != Document
  }

  ghost predicate WellFormed(st: Stack) {
    Shaped(st) && NoInnerDocument(st)
  }

  ghost predicate Inv(sc: Scanner) {
    WellFormed(sc.stack) && sc.chid <= |sc.s|
  }

  /** The failures that the invariant rules out. */
  predicate Safe<T>(r: Result<T>) {
    r.Err? ==> r.error != StackUnderflow && r.error != MissingKey
  }

  /** A rule's result relative to the scanner it was given: same text, cursor within it,
      stack still well formed, and the cursor moved forward or the mode is in-line. */
  ghost predicate Moves(a: Scanner, r: Scanner) {
    && r.s == a.s && r.chid <= |a.s| && WellFormed(r.stack)
    && (a.chid < r.chid || (a.chid == r.chid && !r.newLine))
  }

  /** A rule applied to `a` neither underflows nor reads a missing `depth`, and on success
      it moves as above. */
  ghost predicate Sound(a: Scanner, r: Result<Scanner>) {
    Safe(r) && (r.Ok? ==> Moves(a, r.value))
  }

  /*************************************************************************
   * The stack operations keep the invariant
   *************************************************************************/

  lemma RetainsShaped(r: Stack, st: Stack)
    requires Shaped(st) && Retains(r, st) && |r| >= 1
    ensures Shaped(r)
  {
  }

  lemma RetainsTrans(a: Stack, b: Stack, c: Stack)
    requires Retains(a, b) && Retains(b, c)
    ensures Retains(a, c)
  {
  }

  lemma PushWellFormed(st: Stack, n: Node)
    requires WellFormed(st) && Inner(n.kind) && n.children == []
    ensures WellFormed(Push(st, n))
  {
    var r := Push(st, n);
    forall i | 0 <= i < |st| ensures r[i] == st[i] {
      assert r[..|st|][i] == st[i];
    }
  }

  lemma PushWithParagraphWellFormed(st: Stack, outer: Node)
    requires WellFormed(st) && Inner(outer.kind) && outer.children == []
    ensures WellFormed(PushWithParagraph(st, outer))
  {
    PushWellFormed(st, outer);
    PushWellFormed(Push(st, outer), NewNode(Paragraph));
  }

  /** No Formula or FormulaSpan frame is open. */
  lemma NoFormulaOpen(st: Stack)
    requires Shaped(st)
    ensures Count(st, [Formula]) == 0 && Count(st, [FormulaSpan]) == 0
  {
    forall i | 0 <= i < |st| ensures st[i].kind !in [Formula] && st[i].kind !in [FormulaSpan] {
      assert i == 0 || Inner(st[i].kind);
    }
  }

  /** Closing the top frame into the frame beneath adds the closed frame and its
      descendants to that frame's descendants, so no Document appears below a frame when
      none did and the closed frame is not one. */
  lemma PopKeepsNoInnerDocument(st: Stack)
    requires NoInnerDocument(st) && |st| >= 2 && st[|st| - 1].kind != Document
    ensures NoInnerDocument(Pop(st).value)
  {
    var k := |st|;
    var r := Pop(st).value;
    AppendOneChildPreOrder(st[k - 2], st[k - 1]);
    forall i | 0 <= i < |r| ensures HoldsNoDocument(r[i]) {
      if i < k - 2 {
        assert r[i] == r[..k - 2][i];
      }
    }
  }

  lemma PopWellFormed(st: Stack)
    requires WellFormed(st) && |st| >= 2
    ensures WellFormed(Pop(st).value)
  {
    RetainsShaped(Pop(st).value, st);
    PopKeepsNoInnerDocument(st);
  }

  /** Each iteration of the pop loop closes a frame above the Document. */
  lemma {:induction false} PopLoopWellFormed(st: Stack, types: seq<Kind>)
    requires WellFormed(st) && IsOpen(st, types)
    ensures WellFormed(PopLoop(st, types))
    decreases |st|
  {
    if !MatchesType(st[|st| - 1], types) {
      PopKeepsOpen(st, types);
      PopWellFormed(st);
      PopLoopWellFormed(Pop(st).value, types);
    }
  }

  /** Closing down to kinds that exclude the Document keeps the Document, and when such a
      frame is open the result has it on top, above the Document. */
  lemma PopUntilWellFormed(st: Stack, types: seq<Kind>)
    requires WellFormed(st) && Document !in types
    ensures WellFormed(PopUntil(st, types))
    ensures Count(st, types) == 1 ==> |PopUntil(st, types)| >= 2
  {
    if Count(st, types) == 1 {
      PopLoopWellFormed(st, types);
      PopUntilAboveBottom(st, types);
    }
  }

  /** With a Document at the bottom, closing down to an open frame of other kinds leaves
      that frame on top, above the bottom frame. */
  lemma PopUntilAboveBottom(st: Stack, types: seq<Kind>)
    requires |st| >= 1 && st[0].kind == Document && Document !in types && Count(st, types) == 1
    ensures |PopUntil(st, types)| >= 2
  {
    var r := PopUntil(st, types);
    assert r[|r| - 1].kind in types;
  }

  /** The closed leaf brings in only `outer` and its String. */
  lemma CloseLeafWellFormed(st: Stack, outer: Node, text: string)
    requires WellFormed(st) && outer.kind != Document && outer.children == []
    ensures WellFormed(CloseLeaf(st, outer, text))
  {
    var r := CloseLeaf(st, outer, text);
    var k := |st|;
    RetainsShaped(r, st);
    var leaf := Stamp(NewLeaf(String, text), k + 1);
    var inner := AppendChild(Stamp(outer, k), [leaf]);
    AppendOneChildPreOrder(Stamp(outer, k), leaf);
    AppendOneChildPreOrder(st[k - 1], inner);
    assert PreOrderList(inner.children) == [leaf];
    forall i | 0 <= i < |r| ensures HoldsNoDocument(r[i]) {
      if i < k - 1 {
        assert r[i] == r[..k - 1][i];
      }
    }
  }

  /** An open frame of a kind other than the Document sits above the bottom frame. */
  lemma OpenAboveBottom(st: Stack, types: seq<Kind>)
    requires WellFormed(st) && Document !in types && Count(st, types) == 1
    ensures |st| >= 2
  {
    var i :| 0 <= i < |st| && st[i].kind in types;
    assert i != 0;
  }

  /*************************************************************************
   * Headings
   *************************************************************************/

  /** The closing loop of a heading of depth `titleDepth >= 1` stops at the latest on the
      Document, whose depth is 0; the frame it leaves on top is at height `<= titleDepth`. */
  lemma {:induction false} CloseSectionsSound(st: Stack, titleDepth: nat)
    requires WellFormed(st) && titleDepth >= 1
    ensures CloseSections(st, titleDepth).Ok?
    ensures WellFormed(CloseSections(st, titleDepth).value)
    ensures Retains(CloseSections(st, titleDepth).value, st)
    ensures |CloseSections(st, titleDepth).value| <= titleDepth
    decreases |st|
  {
    if |st| - 1 >= titleDepth {
      PopWellFormed(st);
      var p := Pop(st).value;
      PopUntilWellFormed(p, [Section]);
      var q := PopUntil(p, [Section]);
      CloseSectionsSound(q, titleDepth);
      RetainsTrans(q, p, st);
      RetainsTrans(CloseSections(q, titleDepth).value, q, st);
    }
  }

  /** The three frames a heading opens on top of the closed stack. */
  lemma HeadingFrames(closed: Stack)
    ensures var st := OpenHeading(closed);
      var n := |closed|;
      && |st| == n + 3 && st[..n] == closed
      && st[n].kind == Section && st[n].attrib.depth == Some(n)
      && st[n + 1].kind == SectionTitle && st[n + 2].kind == Paragraph
      && st[n].children == [] && st[n + 1].children == [] && st[n + 2].children == []
  {
    var s1 := Push(closed, NewNode(Section));
    var s2 := Push(s1, NewNode(SectionTitle));
    var st := Push(s2, NewNode(Paragraph));
    assert st[..|closed|] == s2[..|closed|] == s1[..|closed|];
  }

  /** Opening a heading's frames keeps the invariant. */
  lemma HeadingPush(closed: Stack)
    requires WellFormed(closed)
    ensures WellFormed(OpenHeading(closed))
  {
    var s1 := Push(closed, NewNode(Section));
    var s2 := Push(s1, NewNode(SectionTitle));
    PushWellFormed(closed, NewNode(Section));
    PushWellFormed(s1, NewNode(SectionTitle));
    PushWellFormed(s2, NewNode(Paragraph));
  }

  /** Closing sections for a heading of depth `n >= 1` leaves a well-formed stack of at
      most `n` frames kept from the old one. The level check that follows passes exactly
      when the heading is at most one level deeper than the frame left on top, fails only
      with BadHeadingDepth, and never fails for `n == 1`; when it passes, exactly `n`
      frames are left. */
  lemma SectionBaseSound(st: Stack, n: nat)
    requires WellFormed(st) && n >= 1
    ensures var r := SectionBase(st, n);
      && (r.Err? ==> r.error == BadHeadingDepth)
      && (n == 1 ==> r.Ok?)
      && (r.Ok? ==> WellFormed(r.value) && |r.value| == n && Retains(r.value, st))
    ensures var c := CloseSections(PopUntil(st, [Section]), n);
      c.Ok? && (SectionBase(st, n).Ok? <==> |c.value| == n)
  {
    var below := PopUntil(st, [Section]);
    PopUntilWellFormed(st, [Section]);
    CloseSectionsSound(below, n);
    var closed := CloseSections(below, n).value;
    RetainsTrans(closed, below, st);
    assert closed[|closed| - 1].attrib.depth == Some(|closed| - 1) by {
      assert Stamped(closed);
    }
    assert SectionBase(st, n) == if n - (|closed| - 1) > 1 then Err(BadHeadingDepth) else Ok(closed);
  }

  /** The height part of `SectionBaseSound`, without the invariant of the result. */
  lemma SectionBaseHeight(st: Stack, n: nat)
    requires WellFormed(st) && n >= 1
    ensures var r := SectionBase(st, n);
      && (r.Err? ==> r.error == BadHeadingDepth)
      && (n == 1 ==> r.Ok?)
      && (r.Ok? ==> |r.value| == n && Retains(r.value, st))
  {
    SectionBaseSound(st, n);
  }

  lemma HeadingSound(sc: Scanner)
    requires WellFormed(sc.stack) && sc.chid < |sc.s| && sc.s[sc.chid] == '='
    ensures Sound(sc, ScanHeading(sc))
  {
    var run := RunLength(sc.s, sc.chid, '=');
    if run.Ok? {
      SectionBaseSound(sc.stack, run.value);
      var base := SectionBase(sc.stack, run.value);
      if base.Ok? {
        HeadingPush(base.value);
      }
    }
  }

  /*************************************************************************
   * The other line-start rules
   *************************************************************************/

  lemma CommentSound(sc: Scanner)
    requires WellFormed(sc.stack)
    ensures Sound(sc, ScanComment(sc))
  {
  }

  /** The stack effect of an image keeps the invariant. */
  lemma ImageStackSound(st: Stack, path: string)
    requires WellFormed(st)
    ensures WellFormed(PushWithParagraph(PopUntil(st, [Block]), NewImage(path)))
  {
    PopUntilWellFormed(st, [Block]);
    PushWithParagraphWellFormed(PopUntil(st, [Block]), NewImage(path));
  }

  /** A successful image keeps the invariant and moves past the closing caret. */
  lemma ImageMoves(sc: Scanner)
    requires WellFormed(sc.stack)
    ensures ScanImage(sc).Ok? ==> Moves(sc, ScanImage(sc).value)
  {
    var e := Index(sc.s, "^", sc.chid + 1);
    if e.Ok? {
      ImageResult(sc);
      ImageStack(sc);
      ImageStackSound(sc.stack, Slice(sc.s, sc.chid + 1, e.value));
    }
  }

  lemma ImageSound(sc: Scanner)
    requires WellFormed(sc.stack)
    ensures Sound(sc, ScanImage(sc))
  {
    ImageMoves(sc);
  }

  lemma AlertSound(sc: Scanner)
    requires WellFormed(sc.stack) && !sc.newLine
    ensures Sound(sc, ScanAlert(sc))
  {
    PopUntilWellFormed(sc.stack, [Block]);
    var below := PopUntil(sc.stack, [Block]);
    var run := RunLength(sc.s, sc.chid, '!');
    if run.Ok? {
      PushWithParagraphWellFormed(below, NewAlert(run.value));
    }
  }

  lemma BlankLinesStackSound(st: Stack)
    requires WellFormed(st)
    ensures BlankLinesStack(st).Ok? && WellFormed(BlankLinesStack(st).value)
  {
    PopUntilWellFormed(st, [Block]);
    PopUntilWellFormed(st, [Section]);
    if Count(st, [Block]) == 0 && st[|st| - 1].kind != Document {
      PushWellFormed(PopUntil(st, [Section]), NewNode(Block));
    }
  }

  lemma BlankLinesSound(sc: Scanner)
    requires WellFormed(sc.stack) && sc.chid < |sc.s| && sc.s[sc.chid] == '\n'
    ensures Sound(sc, ScanBlankLines(sc))
  {
    BlankLinesStackSound(sc.stack);
  }

  lemma ListItemSound(sc: Scanner)
    requires WellFormed(sc.stack)
    ensures WellFormed(ScanListItem(sc).stack)
  {
    var st: Stack;
    if Count(sc.stack, [ListContainer]) == 0 {
      PopUntilWellFormed(sc.stack, [Boxed, Block]);
      st := Push(PopUntil(sc.stack, [Boxed, Block]), NewNode(ListContainer));
      PushWellFormed(PopUntil(sc.stack, [Boxed, Block]), NewNode(ListContainer));
    } else {
      OpenAboveBottom(sc.stack, [ListContainer]);
      PopUntilWellFormed(sc.stack, [ListItem]);
      PopWellFormed(PopUntil(sc.stack, [ListItem]));
      st := PopItem(sc.stack);
    }
    PushWithParagraphWellFormed(st, NewNode(ListItem));
  }

  lemma OtherLineStartSound(sc: Scanner)
    requires WellFormed(sc.stack) && sc.chid <= |sc.s| && !sc.newLine
    ensures Sound(sc, ScanOtherLineStart(sc))
  {
    PopUntilWellFormed(sc.stack, [Section]);
    PushWellFormed(PopUntil(sc.stack, [Section]), NewNode(Block));
  }

  /** `-` at line start: a continuation, a list item, or the fall-through. */
  lemma DashSound(sc: Scanner)
    requires WellFormed(sc.stack) && sc.chid < |sc.s| && !sc.newLine
    ensures Sound(sc, ScanDash(sc))
  {
    if sc.chid + 1 < |sc.s| {
      var next := sc.s[sc.chid + 1];
      if next == '>' {
        assert ScanDash(sc) == Ok(ScanContinuation(sc));
      } else if next == ' ' {
        ListItemSound(sc);
        var r := ScanListItem(sc);
        assert ScanDash(sc) == Ok(r);
        assert r.chid == sc.chid + 1 && r.s == sc.s;
      } else {
        OtherLineStartSound(sc);
        assert ScanDash(sc) == ScanOtherLineStart(sc);
      }
    }
  }

  /** A capture keeps the invariant and moves past the delimiter. */
  lemma CaptureSound(sc: Scanner, below: Stack, outer: Node, textFrom: nat, searchFrom: nat, endTag: string)
    requires WellFormed(below) && outer.kind != Document && outer.children == []
    requires sc.chid < searchFrom && |endTag| >= 1
    ensures Sound(sc, Capture(sc, below, outer, textFrom, searchFrom, endTag))
    ensures Capture(sc, below, outer, textFrom, searchFrom, endTag).Ok? ==>
      sc.chid < Capture(sc, below, outer, textFrom, searchFrom, endTag).value.chid
  {
    var r := Capture(sc, below, outer, textFrom, searchFrom, endTag);
    CaptureFinds(sc, below, outer, textFrom, searchFrom, endTag);
    if r.Ok? {
      CaptureCloses(sc, below, outer, textFrom, searchFrom, endTag);
      var end := r.value.chid - |endTag|;
      assert searchFrom <= end && Occurs(sc.s, endTag, end);
      CloseLeafWellFormed(below, outer, Slice(sc.s, textFrom, end));
      assert WellFormed(r.value.stack);
    }
  }

  /** With no Formula open, a display formula is a capture onto the innermost Block. */
  lemma DisplayFormulaIsCapture(sc: Scanner, endTag: string, below: Stack)
    requires Count(sc.stack, [Formula]) == 0 && below == PopUntil(sc.stack, [Block])
    ensures ScanDisplayFormula(sc, endTag) == Capture(sc, below, NewNode(Formula), sc.chid + 1, sc.chid + 1, endTag)
  {
  }

  /** With no FormulaSpan open, an inline formula is a capture onto the innermost
      Paragraph or span. */
  lemma InlineFormulaIsCapture(sc: Scanner, endTag: string, below: Stack)
    requires Count(sc.stack, [FormulaSpan]) == 0 && below == PopUntil(sc.stack, InlineScopes)
    ensures ScanInlineFormula(sc, endTag) == Capture(sc, below, NewNode(FormulaSpan), sc.chid + 1, sc.chid + 1, endTag)
  {
  }

  /** With no Formula open, only the branch that moves past the delimiter is taken. */
  lemma DisplayFormulaSound(sc: Scanner, endTag: string)
    requires WellFormed(sc.stack) && |endTag| >= 1
    ensures Sound(sc, ScanDisplayFormula(sc, endTag))
  {
    var below := PopUntil(sc.stack, [Block]);
    NoFormulaOpen(sc.stack);
    DisplayFormulaIsCapture(sc, endTag, below);
    PopUntilWellFormed(sc.stack, [Block]);
    CaptureSound(sc, below, NewNode(Formula), sc.chid + 1, sc.chid + 1, endTag);
  }

  /** `$` at line start: a display formula when a second `$` follows, else the fall-through. */
  lemma DollarSound(sc: Scanner)
    requires WellFormed(sc.stack) && sc.chid < |sc.s| && !sc.newLine
    ensures Sound(sc, ScanDollar(sc))
  {
    if sc.chid + 1 < |sc.s| {
      if sc.s[sc.chid + 1] == '$' {
        DisplayFormulaSound(sc, "$$");
        assert ScanDollar(sc) == ScanDisplayFormula(sc, "$$");
      } else {
        OtherLineStartSound(sc);
        assert ScanDollar(sc) == ScanOtherLineStart(sc);
      }
    } else {
      assert ScanDollar(sc) == Err(IndexOutOfRange);
    }
  }

  lemma CodeSound(sc: Scanner)
    requires WellFormed(sc.stack)
    ensures Sound(sc, ScanCode(sc))
  {
    PopUntilWellFormed(sc.stack, [Block]);
    CaptureSound(sc, PopUntil(sc.stack, [Block]), NewNode(Code), sc.chid + 3, sc.chid + 1, "~~~\n");
  }

  lemma EndOfBlockSound(sc: Scanner)
    requires WellFormed(sc.stack)
    ensures Sound(sc, ScanEndOfBlock(sc))
  {
    if Count(sc.stack, [Block]) == 1 {
      OpenAboveBottom(sc.stack, [Block]);
      PopUntilWellFormed(sc.stack, [Block]);
      var b := PopUntil(sc.stack, [Block]);
      PopWellFormed(b);
      PushWellFormed(Pop(b).value, NewNode(Block));
    }
  }

  /** Every line-start rule, given the token's last character, keeps the invariant, moves
      forward (only the fall-through stays, in in-line mode) and never underflows. */
  lemma LineStartSound(sc: Scanner, ch: string)
    requires WellFormed(sc.stack) && sc.chid < |sc.s| && !sc.newLine
    requires |ch| >= 1 && ch[|ch| - 1] == sc.s[sc.chid]
    ensures Sound(sc, LineStart(sc, ch))
  {
    if ch == "#" {
      CommentSound(sc);
    } else if ch == "^" {
      ImageSound(sc);
    } else if ch == "!" {
      AlertSound(sc);
    } else if ch == "=" {
      HeadingSound(sc);
    } else if ch == "\n" {
      BlankLinesSound(sc);
    } else if ch == "-" {
      DashSound(sc);
    } else if ch == "$" {
      DollarSound(sc);
    } else if ch == "\\[" {
      DisplayFormulaSound(sc, "\\]");
    } else if ch == "~" {
      CodeSound(sc);
    } else if ch == "%" {
      EndOfBlockSound(sc);
    } else {
      OtherLineStartSound(sc);
    }
  }

  /*************************************************************************
   * In-line rules
   *************************************************************************/

  /** With no FormulaSpan open, only the branch that moves past the delimiter is taken. */
  lemma InlineFormulaSound(sc: Scanner, endTag: string)
    requires WellFormed(sc.stack) && |endTag| >= 1
    ensures Sound(sc, ScanInlineFormula(sc, endTag))
    ensures ScanInlineFormula(sc, endTag).Ok? ==> sc.chid < ScanInlineFormula(sc, endTag).value.chid
  {
    var below := PopUntil(sc.stack, InlineScopes);
    NoFormulaOpen(sc.stack);
    InlineFormulaIsCapture(sc, endTag, below);
    PopUntilWellFormed(sc.stack, InlineScopes);
    CaptureSound(sc, below, NewNode(FormulaSpan), sc.chid + 1, sc.chid + 1, endTag);
  }

  lemma SpanSound(sc: Scanner, kind: Kind)
    requires WellFormed(sc.stack) && Inner(kind)
    ensures WellFormed(ScanSpan(sc, kind).stack)
  {
    PopUntilWellFormed(sc.stack, [Paragraph]);
    PushWellFormed(PopUntil(sc.stack, [Paragraph]), NewNode(kind));
  }

  /** The Paragraph step of ordinary text keeps the invariant and leaves a Paragraph open. */
  lemma WithParagraph(st: Stack)
    requires WellFormed(st)
    ensures var w := if Count(st, [Paragraph]) == 0 then Push(st, NewNode(Paragraph)) else st;
      WellFormed(w) && Count(w, [Paragraph]) == 1 && Count(w, [String]) == Count(st, [String])
  {
    PushWellFormed(st, NewNode(Paragraph));
    if Count(st, [Paragraph]) == 0 {
      var w := Push(st, NewNode(Paragraph));
      assert w[|st|].kind == Paragraph;
      assert forall i :: 0 <= i < |st| ==> w[i] == st[i];
    }
  }

  lemma AppendTextWellFormed(st: Stack, text: string)
    requires WellFormed(st) && AppendText(st, text).Ok?
    ensures WellFormed(AppendText(st, text).value)
  {
    var r := AppendText(st, text).value;
    forall i | 0 <= i < |st|
      ensures r[i].kind == st[i].kind && r[i].attrib == st[i].attrib && r[i].children == st[i].children
    {
      if i < |st| - 1 {
        assert r[i] == r[..|st| - 1][i];
      }
    }
    RetainsShaped(r, st);
  }

  lemma TextStackSound(st: Stack, text: string)
    requires WellFormed(st)
    ensures var r := TextStack(st, text);
      && (r.Err? ==> r.error == StringNotOnTop)
      && (r.Ok? ==> WellFormed(r.value))
  {
    var withPara := if Count(st, [Paragraph]) == 0 then Push(st, NewNode(Paragraph)) else st;
    WithParagraph(st);
    if Count(withPara, [String]) == 0 {
      PushWellFormed(withPara, NewLeaf(String, text));
    } else if AppendText(withPara, text).Ok? {
      AppendTextWellFormed(withPara, text);
    }
  }

  lemma TextSound(sc: Scanner, ch: string)
    requires WellFormed(sc.stack)
    ensures var r := ScanText(sc, ch);
      && (r.Err? ==> r.error == StringNotOnTop)
      && (r.Ok? ==> WellFormed(r.value.stack) && r.value.chid == sc.chid + 1
                    && r.value.s == sc.s && r.value.newLine == sc.newLine)
  {
    TextStackSound(sc.stack, Escape(ch));
  }

  lemma InLineSound(sc: Scanner, ch: string)
    requires WellFormed(sc.stack) && sc.chid < |sc.s|
    ensures Sound(sc, InLine(sc, ch))
    ensures InLine(sc, ch).Ok? ==> InLine(sc, ch).value.chid > sc.chid
  {
    if ch == "$" {
      InlineFormulaSound(sc, "$");
    } else if ch == "\\(" {
      InlineFormulaSound(sc, "\\)");
    } else if ch == "*" {
      SpanSound(sc, BoldfaceSpan);
    } else if ch == "/" {
      SpanSound(sc, ItalicSpan);
    } else if ch == "+" {
      SpanSound(sc, TypewriterSpan);
    } else if ch == "\n" {
    } else {
      TextSound(sc, ch);
    }
  }

  /*************************************************************************
   * One step of the scan
   *************************************************************************/

  /** The loop measure decreases: the cursor advances, or it stays and line-start mode
      is left. */
  ghost predicate Progress(a: Scanner, r: Scanner) {
    a.chid < r.chid || (a.chid == r.chid && a.newLine && !r.newLine)
  }

  /** One iteration keeps the invariant, makes progress and never underflows the stack or
      reads a missing `depth`. */
  lemma StepSound(sc: Scanner)
    requires Inv(sc) && sc.chid < |sc.s|
    ensures Safe(Step(sc))
    ensures Step(sc).Ok? ==> Inv(Step(sc).value) && Step(sc).value.s == sc.s && Progress(sc, Step(sc).value)
  {
    var t := Token(sc.s, sc.chid);
    if t.Ok? {
      var ch := t.value.0;
      var c := t.value.1;
      assert c < |sc.s| && ch[|ch| - 1] == sc.s[c];
      if sc.newLine {
        LineStartSound(sc.(chid := c, newLine := false), ch);
      } else {
        InLineSound(sc.(chid := c), ch);
      }
    }
  }
}

=== FILE: scan_rules.dfy ===
/** The scanning rules of `Parser.parse_document`, one function per rule.

    The scan keeps a cursor `chid` into the preprocessed text, the mode flag
    `new_line` (line-start or in-line recognition) and the open-node stack.
    Each rule receives the scanner after the current token has been read:
    `chid` is on the token's last character and, at line start, `newLine`
    has already been cleared, as the source does before dispatching.
 */
module ScanRules {
  import opened Results
  import opened ElementNode
  import opened ElementStack
  import opened Text

  datatype Scanner = Scanner(s: string, chid: nat, newLine: bool, stack: Stack)

  /*************************************************************************
   * Input handling
   *************************************************************************/

  /** The characters a backslash escape turns into themselves. */
  const Escapable: string := "$%+*!/\\"

  const EscapeTable: map<string, string> :=
    map["\\$" := "$", "\\%" := "%", "\\+" := "+", "\\*" := "*",
        "\\!" := "!", "\\/" := "/", "\\\\" := "\\"]

  /** `escape(ch)`: a backslash before one of `$ % + * ! / \` yields that character;
      every other token, including any other escape pair, is returned unchanged. */
  function Escape(ch: string): (r: string)
    ensures |ch| == 2 && ch[0] == '\\' && ch[1] in Escapable ==> r == ch[1..]
    ensures !(|ch| == 2 && ch[0] == '\\' && ch[1] in Escapable) ==> r == ch
  {
    assert EscapeTable.Keys == {"\\$", "\\%", "\\+", "\\*", "\\!", "\\/", "\\\\"};
    if ch in EscapeTable then
      assert |ch| == 2 && ch[0] == '\\' && ch[1] in Escapable;
      EscapeTable[ch]
    else
      assert |ch| == 2 && ch[0] == '\\' ==> ch == ['\\', ch[1]];
      ch
  }

  /** The line-wise preprocessing: every line loses its trailing whitespace. */
  function Preprocess(text: string): string {
    var lines := Split(text);
    Join(seq(|lines|, i requires 0 <= i < |lines| => RStrip(lines[i])))
  }

  /** The token starting at `chid`: one character, or a backslash together with the
      character after it. Also returns the position of the token's last character. */
  function Token(s: string, chid: nat): (r: Result<(string, nat)>)
    requires chid < |s|
    ensures r.Err? <==> s[chid] == '\\' && chid + 1 == |s|
    ensures r.Err? ==> r.error == IndexOutOfRange
    ensures r.Ok? && s[chid] != '\\' ==> r.value == ([s[chid]], chid)
    ensures r.Ok? && s[chid] == '\\' ==> r.value == (s[chid..chid + 2], chid + 1)
  {
    if s[chid] == '\\' then
      var c :- CharAt(s, chid + 1);
      assert s[chid..chid + 2] == [s[chid], c];
      Ok(([s[chid], c], chid + 1))
    else
      Ok(([s[chid]], chid))
  }

  /** The `depth` attribute, a `KeyError` on a node that was never pushed. */
  function DepthOf(n: Node): (r: Result<nat>)
    ensures r.Ok? <==> n.attrib.depth.Some?
    ensures r.Ok? ==> n.attrib.depth == Some(r.value)
    ensures r.Err? ==> r.error == MissingKey
  {
    match n.attrib.depth
    case None => Err(MissingKey)
    case Some(d) => Ok(d)
  }

  function Stamp(n: Node, d: nat): Node {
    n.(attrib := n.attrib.(depth := Some(d)))
  }

  /** The frame `outer` holding one String leaf with `text`, closed at once into the top
      frame of `st`: the top frame gains it as its last child, the frames beneath do not
      change. The rules do this by two pushes and two pops (CloseLeafIsPushPop). */
  function CloseLeaf(st: Stack, outer: Node, text: string): (r: Stack)
    ensures |st| >= 1 ==> |r| == |st| && Retains(r, st) && r[..|st| - 1] == st[..|st| - 1]
  {
    if |st| == 0 then []
    else
      var k := |st|;
      st[..k - 1] + [AppendChild(st[k - 1], [AppendChild(Stamp(outer, k), [Stamp(NewLeaf(String, text), k + 1)])])]
  }

  /** `push(outer); push(StringNode(text)); pop(); pop()`, as the source writes it, is
      CloseLeaf. */
  lemma CloseLeafIsPushPop(st: Stack, outer: Node, text: string)
    ensures Pop(Push(Push(st, outer), NewLeaf(String, text))).Ok?
    ensures Pop(Pop(Push(Push(st, outer), NewLeaf(String, text))).value) == Ok(CloseLeaf(st, outer, text))
  {
    var st1 := Push(Push(st, outer), NewLeaf(String, text));
    var st2 := Pop(st1).value;
    var k := |st|;
    assert st2[..k] == st;
    if k >= 1 {
      assert st2[k] == AppendChild(Stamp(outer, k), [Stamp(NewLeaf(String, text), k + 1)]);
      assert Pop(st2).value[..k - 1] == st[..k - 1];
    }
  }

  /*************************************************************************
   * Line-start rules
   *************************************************************************/

  /** `#`: a comment; skip past the end of the line and stay at line start. */
  function ScanComment(sc: Scanner): (r: Result<Scanner>)
    ensures r.Ok? ==> r.value == sc.(chid := r.value.chid, newLine := true)
    ensures r.Ok? ==> sc.chid < r.value.chid && Occurs(sc.s, "\n", r.value.chid - 1)
    ensures r.Ok? ==> forall j :: sc.chid <= j < r.value.chid - 1 ==> !Occurs(sc.s, "\n", j)
    ensures r.Err? <==> NoneFrom(sc.s, "\n", sc.chid)
    ensures r.Err? ==> r.error == MissingDelimiter
  {
    var eol :- Index(sc.s, "\n", sc.chid);
    Ok(sc.(chid := eol + 1, newLine := true))
  }

  /** The two pushes shared by images, alerts and list items: `outer`, then a fresh
      Paragraph for the text inside it. */
  function PushWithParagraph(st: Stack, outer: Node): (r: Stack)
    ensures |r| == |st| + 2 && r[..|st|] == st
    ensures r[|st|] == Stamp(outer, |st|)
    ensures r[|st| + 1].kind == Paragraph && r[|st| + 1].children == []
  {
    Push(Push(st, outer), NewNode(Paragraph))
  }

  /** `^path^`: close up to the enclosing Block, open an Image holding the path and its
      caption Paragraph, and resume in-line after the closing `^`. */
  function ScanImage(sc: Scanner): (r: Result<Scanner>)
    ensures r.Err? ==> r.error == MissingDelimiter
    ensures r.Ok? ==> && r.value.s == sc.s && r.value.newLine == sc.newLine
                      && sc.chid + 1 < r.value.chid && Occurs(sc.s, "^", r.value.chid - 1)
  {
    var below := PopUntil(sc.stack, [Block]);
    var end :- Index(sc.s, "^", sc.chid + 1);
    Ok(sc.(chid := end + 1, stack := PushWithParagraph(below, NewImage(Slice(sc.s, sc.chid + 1, end)))))
  }

  /** When a closing caret follows, an image succeeds and resumes just after it. */
  lemma ImageResult(sc: Scanner)
    ensures var e := Index(sc.s, "^", sc.chid + 1);
      e.Ok? ==> (ScanImage(sc).Ok? && ScanImage(sc).value.chid == e.value + 1)
  {
  }

  /** A successful image leaves the Image and its caption Paragraph on top of the stack
      closed down to the Block. */
  lemma ImageStack(sc: Scanner)
    ensures var e := Index(sc.s, "^", sc.chid + 1);
      e.Ok? ==> (ScanImage(sc).Ok? && ScanImage(sc).value.stack
        == PushWithParagraph(PopUntil(sc.stack, [Block]), NewImage(Slice(sc.s, sc.chid + 1, e.value))))
  {
  }

  /** A run of `!`: close up to the enclosing Block and open an Alert whose level is the
      length of the run, then its Paragraph. Only the `!` characters are consumed. */
  function ScanAlert(sc: Scanner): (r: Result<Scanner>)
    ensures r.Err? <==> forall j :: sc.chid <= j < |sc.s| ==> sc.s[j] == '!'
    ensures r.Err? ==> r.error == IndexOutOfRange
    ensures r.Ok? ==> && r.value.s == sc.s && r.value.newLine == sc.newLine
                      && r.value.chid < |sc.s| && sc.s[r.value.chid] != '!'
                      && (forall j :: sc.chid <= j < r.value.chid ==> sc.s[j] == '!')
  {
    var below := PopUntil(sc.stack, [Block]);
    var level :- RunLength(sc.s, sc.chid, '!');
    Ok(sc.(chid := sc.chid + level, stack := PushWithParagraph(below, NewAlert(level))))
  }

  /** The loop after a heading's `=` run: while the top's depth is not below the heading's,
      close the top and then everything above the nearest Section. */
  function CloseSections(st: Stack, titleDepth: nat): (r: Result<Stack>)
    ensures r.Ok? ==> |r.value| >= 1
    ensures r.Ok? ==> var top := r.value[|r.value| - 1];
                      top.attrib.depth.Some? && top.attrib.depth.value < titleDepth
    decreases |st|
  {
    var top :- Top(st);
    var d :- DepthOf(top);
    if d >= titleDepth then
      var p := Pop(st).value;
      var q := PopUntil(p, [Section]);
      assert |q| <= |p| < |st|;
      CloseSections(q, titleDepth)
    else
      Ok(st)
  }

  /** After a heading's `=` run of length `titleDepth`: close sections, then check that the
      heading is at most one level deeper than the node left on top and open Section,
      SectionTitle and Paragraph in that order. The closing loop leaves a frame with a
      depth on top, so the `top()` and `attrib['depth']` that follow it cannot fail. */
  function OpenSection(st: Stack, titleDepth: nat): Result<Stack> {
    var closed :- SectionBase(st, titleDepth);
    Ok(OpenHeading(closed))
  }

  /** The part of a heading before its three pushes: close sections and check the level. */
  function SectionBase(st: Stack, titleDepth: nat): Result<Stack> {
    var closed :- CloseSections(PopUntil(st, [Section]), titleDepth);
    var d := closed[|closed| - 1].attrib.depth.value;
    if titleDepth - d > 1 then Err(BadHeadingDepth) else Ok(closed)
  }

  /** The three frames a heading opens: Section, SectionTitle and Paragraph. */
  function OpenHeading(closed: Stack): Stack {
    Push(Push(Push(closed, NewNode(Section)), NewNode(SectionTitle)), NewNode(Paragraph))
  }

  /** A run of `=`: a heading whose depth is the run length. */
  function ScanHeading(sc: Scanner): Result<Scanner> {
    var titleDepth :- RunLength(sc.s, sc.chid, '=');
    var st :- OpenSection(sc.stack, titleDepth);
    Ok(sc.(chid := sc.chid + titleDepth, stack := st))
  }

  /** The stack effect of one or more blank lines. */
  function BlankLinesStack(st: Stack): (r: Result<Stack>)
    ensures Count(st, [Block]) == 1 ==> r == Ok(PopUntil(st, [Block]))
    ensures Count(st, [Block]) == 0 && |st| >= 1 && st[|st| - 1].kind == Document ==> r == Ok(st)
    ensures Count(st, [Block]) == 0 && |st| >= 1 && st[|st| - 1].kind != Document ==>
      r.Ok? && var below := PopUntil(st, [Section]);
      |r.value| == |below| + 1 && r.value[..|below|] == below && r.value[|below|].kind == Block
  {
    if Count(st, [Block]) == 0 then
      var top :- Top(st);
      if !MatchesKind(top, Document) then Ok(Push(PopUntil(st, [Section]), NewNode(Block)))
      else Ok(st)
    else
      Ok(PopUntil(st, [Block]))
  }

  /** A newline at line start: skip the whole run of newlines (reading past the end of the
      input is an `IndexError`), adjust the open Block, and stay at line start. */
  function ScanBlankLines(sc: Scanner): (r: Result<Scanner>)
    ensures (forall j :: sc.chid <= j < |sc.s| ==> sc.s[j] == '\n') ==> r == Err(IndexOutOfRange)
    ensures |sc.stack| >= 1 ==> (r.Err? <==> forall j :: sc.chid <= j < |sc.s| ==> sc.s[j] == '\n')
    ensures r.Ok? ==> && r.value.s == sc.s && r.value.newLine
                      && r.value.chid < |sc.s| && sc.s[r.value.chid] != '\n'
                      && (forall j :: sc.chid <= j < r.value.chid ==> sc.s[j] == '\n')
                      && Ok(r.value.stack) == BlankLinesStack(sc.stack)
  {
    var n :- RunLength(sc.s, sc.chid, '\n');
    var st :- BlankLinesStack(sc.stack);
    Ok(sc.(chid := sc.chid + n, newLine := true, stack := st))
  }

  /** `->`: the marker is skipped and the line continues in-line, so its text extends the
      String still open from the previous line. */
  function ScanContinuation(sc: Scanner): Scanner {
    sc.(chid := sc.chid + 2)
  }

  /** The `else` branch of a list item: close the previous ListItem with everything above
      it. A ListContainer is open, so the stack is not empty and `pop()` cannot fail. */
  function PopItem(st: Stack): (r: Stack)
    requires Count(st, [ListContainer]) == 1
    ensures |r| == |PopUntil(st, [ListItem])| - 1 && Retains(r, st)
  {
    Pop(PopUntil(st, [ListItem])).value
  }

  /** `- `: reuse the open ListContainer (closing the previous item) or open one under the
      nearest Boxed or Block; then open a ListItem and its Paragraph. Only `-` is consumed. */
  function ScanListItem(sc: Scanner): (r: Scanner)
    ensures var st := r.stack;
      && r.chid == sc.chid + 1 && r.s == sc.s && r.newLine == sc.newLine
      && |st| >= 2 && st[|st| - 2].kind == ListItem && st[|st| - 1].kind == Paragraph
      && st[|st| - 2].children == [] && st[|st| - 1].children == []
  {
    var st :=
      if Count(sc.stack, [ListContainer]) == 0 then
        Push(PopUntil(sc.stack, [Boxed, Block]), NewNode(ListContainer))
      else
        PopItem(sc.stack);
    sc.(chid := sc.chid + 1, stack := PushWithParagraph(st, NewNode(ListItem)))
  }


  /** The common part of display formulas, code and inline formulas: find the first
      `endTag` at or after `searchFrom`, close `outer` holding a String with the text from
      `textFrom` up to it on top of `below`, and move the cursor past the delimiter.
      What it finds and what it builds are stated by the two lemmas below. */
  function Capture(sc: Scanner, below: Stack, outer: Node, textFrom: nat, searchFrom: nat, endTag: string)
    : Result<Scanner>
  {
    var end :- Index(sc.s, endTag, searchFrom);
    Ok(sc.(chid := end + |endTag|, stack := CloseLeaf(below, outer, Slice(sc.s, textFrom, end))))
  }

  /** A capture fails exactly when no `endTag` is left at or after `searchFrom`, and
      otherwise stops just past the first one. */
  lemma CaptureFinds(sc: Scanner, below: Stack, outer: Node, textFrom: nat, searchFrom: nat, endTag: string)
    ensures var r := Capture(sc, below, outer, textFrom, searchFrom, endTag);
      && (r.Err? <==> NoneFrom(sc.s, endTag, searchFrom))
      && (r.Err? ==> r.error == MissingDelimiter)
      && (r.Ok? ==> FirstAt(sc.s, endTag, searchFrom, r.value.chid - |endTag|))
  {
  }

  /** A successful capture keeps the text and the mode, and closes the leaf on `below`. */
  lemma CaptureCloses(sc: Scanner, below: Stack, outer: Node, textFrom: nat, searchFrom: nat, endTag: string)
    ensures var r := Capture(sc, below, outer, textFrom, searchFrom, endTag); r.Ok? ==>
      && r.value.s == sc.s && r.value.newLine == sc.newLine && r.value.chid >= |endTag|
      && r.value.stack == CloseLeaf(below, outer, Slice(sc.s, textFrom, r.value.chid - |endTag|))
  {
  }

  /** `$$ ... $$` or `\[ ... \]`: close up to the Block, capture the raw text from the
      character after `chid` up to the closing delimiter, and close a Formula holding it as
      a String at once. If a Formula were already open, only the closing happens. */
  function ScanDisplayFormula(sc: Scanner, endTag: string): Result<Scanner> {
    if Count(sc.stack, [Formula]) == 0 then
      Capture(sc, PopUntil(sc.stack, [Block]), NewNode(Formula), sc.chid + 1, sc.chid + 1, endTag)
    else
      Ok(sc.(stack := PopUntil(sc.stack, [Block])))
  }

  /** `~~~`: close up to the Block and close a Code node holding, verbatim, the text after
      the opening fence up to the next `~~~` that ends a line. */
  function ScanCode(sc: Scanner): (r: Result<Scanner>)
    ensures Slice(sc.s, sc.chid, sc.chid + 3) != "~~~" ==> r == Err(BadCodeFence)
  {
    if Slice(sc.s, sc.chid, sc.chid + 3) != "~~~" then Err(BadCodeFence)
    else Capture(sc, PopUntil(sc.stack, [Block]), NewNode(Code), sc.chid + 3, sc.chid + 1, "~~~\n")
  }

  /** `%`: fails without an open Block; otherwise closes the innermost Block, opens a fresh
      empty one, and requires the next character to be a newline, which it skips. */
  function ScanEndOfBlock(sc: Scanner): (r: Result<Scanner>)
    ensures Count(sc.stack, [Block]) == 0 ==> r == Err(NoOpenBlock)
    ensures Count(sc.stack, [Block]) == 1 && sc.chid + 1 >= |sc.s| ==> r == Err(IndexOutOfRange)
    ensures Count(sc.stack, [Block]) == 1 && sc.chid + 1 < |sc.s| && sc.s[sc.chid + 1] != '\n' ==>
      r == Err(BadBlockEnd)
    ensures r.Ok? <==> Count(sc.stack, [Block]) == 1 && sc.chid + 1 < |sc.s| && sc.s[sc.chid + 1] == '\n'
    ensures r.Ok? ==> var st := r.value.stack;
      && r.value.chid == sc.chid + 2 && r.value.newLine && r.value.s == sc.s
      && sc.chid + 1 < |sc.s| && sc.s[sc.chid + 1] == '\n'
      && |st| == |PopUntil(sc.stack, [Block])| && st[|st| - 1].kind == Block && st[|st| - 1].children == []
  {
    if Count(sc.stack, [Block]) == 0 then Err(NoOpenBlock)
    else
      var closed := Pop(PopUntil(sc.stack, [Block])).value;
      var st := Push(closed, NewNode(Block));
      var next :- CharAt(sc.s, sc.chid + 1);
      if next != '\n' then Err(BadBlockEnd)
      else Ok(sc.(chid := sc.chid + 2, newLine := true, stack := st))
  }

  /** The stack a successful `%` line leaves: the innermost Block and everything above it
      closed, and a fresh Block pushed in its place. */
  lemma EndOfBlockResult(sc: Scanner)
    ensures ScanEndOfBlock(sc).Ok? ==> (|PopUntil(sc.stack, [Block])| >= 1
      && ScanEndOfBlock(sc).value.stack == Push(Pop(PopUntil(sc.stack, [Block])).value, NewNode(Block)))
  {
  }

  /** Any other character at line start. The cursor does not move, so the same character
      is scanned again in in-line mode. Before any Paragraph nothing else happens; after a
      heading the title is closed and the section's body Block is opened; otherwise a
      paragraph line without a `->` marker is rejected. */
  function ScanOtherLineStart(sc: Scanner): (r: Result<Scanner>)
    ensures Count(sc.stack, [Paragraph]) == 0 ==> r == Ok(sc)
    ensures Count(sc.stack, [Paragraph]) == 1 && Count(sc.stack, [SectionTitle]) == 0 ==> r == Err(Unimplemented)
    ensures r.Ok? ==> r.value.chid == sc.chid && r.value.newLine == sc.newLine && r.value.s == sc.s
    ensures Count(sc.stack, [Paragraph]) == 1 && Count(sc.stack, [SectionTitle]) == 1 ==>
      r == Ok(sc.(stack := PopUntil(sc.stack, [Section]) + [Stamp(NewNode(Block), |PopUntil(sc.stack, [Section])|)]))
  {
    if Count(sc.stack, [Paragraph]) == 0 then Ok(sc)
    else if Count(sc.stack, [SectionTitle]) == 1 then
      Ok(sc.(stack := Push(PopUntil(sc.stack, [Section]), NewNode(Block))))
    else Err(Unimplemented)
  }

  /** `-` at line start: the tests `s[chid+1] == '>'` and `s[chid+1] == ' '` read past the
      end of the input when `-` is its last character. */
  function ScanDash(sc: Scanner): Result<Scanner> {
    var next :- CharAt(sc.s, sc.chid + 1);
    if next == '>' then Ok(ScanContinuation(sc))
    else if next == ' ' then Ok(ScanListItem(sc))
    else ScanOtherLineStart(sc)
  }

  /** `$` at line start: a display formula when a second `$` follows. */
  function ScanDollar(sc: Scanner): Result<Scanner> {
    var next :- CharAt(sc.s, sc.chid + 1);
    if next == '$' then ScanDisplayFormula(sc, "$$") else ScanOtherLineStart(sc)
  }

  /** Line-start dispatch, in the source's order of tests. */
  function LineStart(sc: Scanner, ch: string): Result<Scanner> {
    if ch == "#" then ScanComment(sc)
    else if ch == "^" then ScanImage(sc)
    else if ch == "!" then ScanAlert(sc)
    else if ch == "=" then ScanHeading(sc)
    else if ch == "\n" then ScanBlankLines(sc)
    else if ch == "-" then ScanDash(sc)
    else if ch == "$" then ScanDollar(sc)
    else if ch == "\\[" then ScanDisplayFormula(sc, "\\]")
    else if ch == "~" then ScanCode(sc)
    else if ch == "%" then ScanEndOfBlock(sc)
    else ScanOtherLineStart(sc)
  }

  /*************************************************************************
   * In-line rules
   *************************************************************************/

  /** The nodes an inline formula may be placed in. */
  const InlineScopes: seq<Kind> := [Paragraph, BoldfaceSpan, ItalicSpan, TypewriterSpan]

  /** `$ ... $` or `\( ... \)`: like the display formula, but closed inside the nearest
      Paragraph or span as a FormulaSpan. If a FormulaSpan were open, only the closing
      happens and the cursor does not move. */
  function ScanInlineFormula(sc: Scanner, endTag: string): Result<Scanner> {
    if Count(sc.stack, [FormulaSpan]) == 0 then
      Capture(sc, PopUntil(sc.stack, InlineScopes), NewNode(FormulaSpan), sc.chid + 1, sc.chid + 1, endTag)
    else
      Ok(sc.(stack := PopUntil(sc.stack, InlineScopes)))
  }

  /** `*`, `/` or `+`: close everything above the innermost Paragraph, then open a span of
      `kind` only if none of that kind was open anywhere. */
  function ScanSpan(sc: Scanner, kind: Kind): (r: Scanner)
    ensures r.chid == sc.chid + 1 && r.newLine == sc.newLine && r.s == sc.s
    ensures Count(sc.stack, [Paragraph]) == 1 ==>
      var st := r.stack; var para := PopUntil(sc.stack, [Paragraph]);
      && para[|para| - 1].kind == Paragraph
      && (forall i :: |para| <= i < |sc.stack| ==> sc.stack[i].kind != Paragraph)
      && (Count(sc.stack, [kind]) == 1 ==> st == para)
      && (Count(sc.stack, [kind]) == 0 ==> |st| == |para| + 1 && st[..|para|] == para
                                           && st[|para|].kind == kind && st[|para|].children == [])
  {
    var para := PopUntil(sc.stack, [Paragraph]);
    if Count(sc.stack, [kind]) == 0 then sc.(chid := sc.chid + 1, stack := Push(para, NewNode(kind)))
    else sc.(chid := sc.chid + 1, stack := para)
  }

  /** A newline in-line: switch to line-start mode. */
  function ScanNewline(sc: Scanner): Scanner {
    sc.(chid := sc.chid + 1, newLine := true)
  }

  /** Append `text` to the String on top; an open String that is not on top is an error. */
  function AppendText(st: Stack, text: string): (r: Result<Stack>)
    ensures r.Ok? <==> |st| >= 1 && st[|st| - 1].kind == String
    ensures r.Err? ==> r.error == StackUnderflow || r.error == StringNotOnTop
    ensures r.Ok? ==> |r.value| == |st| && r.value[..|st| - 1] == st[..|st| - 1]
                      && r.value[|st| - 1] == st[|st| - 1].(content := st[|st| - 1].content + text)
  {
    var top :- Top(st);
    if !MatchesKind(top, String) then Err(StringNotOnTop)
    else Ok(st[..|st| - 1] + [top.(content := top.content + text)])
  }

  /** The stack effect of ordinary text: open a Paragraph if none is open, then start a
      String holding `text` or append `text` to the String on top. */
  function TextStack(st: Stack, text: string): Result<Stack> {
    var withPara := if Count(st, [Paragraph]) == 0 then Push(st, NewNode(Paragraph)) else st;
    if Count(withPara, [String]) == 0 then Ok(Push(withPara, NewLeaf(String, text)))
    else AppendText(withPara, text)
  }

  /** Ordinary text: the escaped token goes into the String, and the cursor moves on. */
  function ScanText(sc: Scanner, ch: string): Result<Scanner> {
    var st :- TextStack(sc.stack, Escape(ch));
    Ok(sc.(chid := sc.chid + 1, stack := st))
  }

  /** In-line dispatch, in the source's order of tests. */
  function InLine(sc: Scanner, ch: string): Result<Scanner> {
    if ch == "$" then ScanInlineFormula(sc, "$")
    else if ch == "\\(" then ScanInlineFormula(sc, "\\)")
    else if ch == "*" then Ok(ScanSpan(sc, BoldfaceSpan))
    else if ch == "/" then Ok(ScanSpan(sc, ItalicSpan))
    else if ch == "+" then Ok(ScanSpan(sc, TypewriterSpan))
    else if ch == "\n" then Ok(ScanNewline(sc))
    else ScanText(sc, ch)
  }

  /** One iteration of the scan loop: read a token, then dispatch on the mode. */
  function Step(sc: Scanner): Result<Scanner>
    requires sc.chid < |sc.s|
  {
    var token :- Token(sc.s, sc.chid);
    if sc.newLine then LineStart(sc.(chid := token.1, newLine := false), token.0)
    else InLine(sc.(chid := token.1), token.0)
  }
}

=== FILE: text.dfy ===
/** The string operations the parser relies on: indexing that can fail,
    slicing, `str.index`, runs of one character, and the line-wise
    `split`/`rstrip`/`join` used to preprocess the input.
 */
module Text {
  import opened Results

  function Min(a: int, b: int): int {
    if a <= b then a else b
  }

  /** Reading `s[i]`: an `IndexError` past the end. */
  function CharAt(s: string, i: nat): (r: Result<char>)
    ensures r.Err? <==> i >= |s|
    ensures r.Err? ==> r.error == IndexOutOfRange
    ensures r.Ok? ==> r.value == s[i]
  {
    if i < |s| then Ok(s[i]) else Err(IndexOutOfRange)
  }

  /** The slice `s[a:b]` for non-negative bounds: clamped to the string, empty when `a >= b`. */
  function Slice(s: string, a: nat, b: nat): (r: string)
    ensures |r| == if a < b && a < |s| then Min(b, |s|) - a else 0
    ensures forall i :: 0 <= i < |r| ==> r[i] == s[a + i]
  {
    if a < b && a < |s| then s[a..Min(b, |s|)] else ""
  }

  /** Within the string, the clamped slice is the plain subsequence. */
  lemma SliceInRange(s: string, a: nat, b: nat)
    requires a <= b <= |s|
    ensures Slice(s, a, b) == s[a..b]
  {
  }

  /** `sub` occurs in `s` at position `j`. */
  predicate Occurs(s: string, sub: string, j: nat) {
    j + |sub| <= |s| && s[j..j + |sub|] == sub
  }

  /** `sub` occurs nowhere at or after `start`. */
  ghost predicate NoneFrom(s: string, sub: string, start: nat) {
    forall j :: start <= j ==> !Occurs(s, sub, j)
  }

  /** `at` is the first position at or after `start` where `sub` occurs. */
  ghost predicate FirstAt(s: string, sub: string, start: nat, at: int) {
    start <= at && Occurs(s, sub, at) && forall j :: start <= j < at ==> !Occurs(s, sub, j)
  }

  /** `s.index(sub, start)`: the first occurrence at or after `start`, or the
      `ValueError` the source raises when there is none. */
  function Index(s: string, sub: string, start: nat): (r: Result<nat>)
    ensures r.Ok? ==> FirstAt(s, sub, start, r.value)
    ensures r.Err? <==> NoneFrom(s, sub, start)
    ensures r.Err? ==> r.error == MissingDelimiter
    decreases |s| - start
  {
    if start + |sub| > |s| then Err(MissingDelimiter)
    else if s[start..start + |sub|] == sub then
      assert Occurs(s, sub, start);
      Ok(start)
    else Index(s, sub, start + 1)
  }

  /** The loop `while s[i] == c: i += 1`, returning how many steps it took.
      It fails with `IndexError` when the run reaches the end of `s`. */
  function RunLength(s: string, i: nat, c: char): (r: Result<nat>)
    ensures r.Ok? ==> i + r.value < |s| && s[i + r.value] != c
    ensures r.Ok? ==> forall j :: i <= j < i + r.value ==> s[j] == c
    ensures r.Err? <==> forall j :: i <= j < |s| ==> s[j] == c
    ensures r.Err? ==> r.error == IndexOutOfRange
    decreases |s| - i
  {
    if i >= |s| then Err(IndexOutOfRange)
    else if s[i] != c then Ok(0)
    else
      var n :- RunLength(s, i + 1, c);
      Ok(n + 1)
  }

  /*************************************************************************
   * Lines
   *************************************************************************/

  /** The characters Python 2's `string.rstrip` strips by default. */
  predicate IsSpace(c: char) {
    c == ' ' || c == '\t' || c == '\n' || c == '\r' || c == '\U{000B}' || c == '\U{000C}'
  }

  /** `string.rstrip(line)`: the longest prefix that does not end in whitespace. */
  function RStrip(line: string): (r: string)
    ensures r <= line
    ensures |r| == 0 || !IsSpace(r[|r| - 1])
    ensures forall i :: |r| <= i < |line| ==> IsSpace(line[i])
    decreases |line|
  {
    if |line| == 0 || !IsSpace(line[|line| - 1]) then line
    else RStrip(line[..|line| - 1])
  }

  /** Stripping a stripped line changes nothing. */
  lemma RStripIdempotent(line: string)
    ensures RStrip(RStrip(line)) == RStrip(line)
  {
  }

  /** `s.split("\n")`: the pieces between newlines; never empty. */
  function Split(s: string): (r: seq<string>)
    ensures |r| >= 1
    ensures forall i :: 0 <= i < |r| ==> '\n' !in r[i]
  {
    if |s| == 0 then [""]
    else
      var rest := Split(s[1..]);
      if s[0] == '\n' then [""] + rest
      else [[s[0]] + rest[0]] + rest[1..]
  }

  /** `"\n".join(lines)`. */
  function Join(lines: seq<string>): (r: string)
    requires |lines| >= 1
    ensures |r| >= |lines| - 1
  {
    if |lines| == 1 then lines[0] else lines[0] + "\n" + Join(lines[1..])
  }

  /** Splitting on newlines and joining again gives the original string back. */
  lemma {:induction false} JoinSplit(s: string)
    ensures Join(Split(s)) == s
  {
    if |s| > 0 {
      JoinSplit(s[1..]);
      var rest := Split(s[1..]);
      if s[0] == '\n' {
        assert ([""] + rest)[1..] == rest;
      } else {
        var r := [[s[0]] + rest[0]] + rest[1..];
        if |rest| > 1 {
          assert r[1..] == rest[1..];
          assert Join(rest) == rest[0] + "\n" + Join(rest[1..]);
        }
        assert s == [s[0]] + s[1..];
      }
    }
  }

  /** Splitting `w + t`, where `w` has no newline, glues `w` onto the first piece of `t`. */
  lemma {:induction false} SplitPrefix(w: string, t: string)
    requires '\n' !in w
    ensures Split(w + t) == [w + Split(t)[0]] + Split(t)[1..]
    decreases |w|
  {
    if |w| == 0 {
      assert w + t == t;
      assert w + Split(t)[0] == Split(t)[0];
      assert Split(t) == [Split(t)[0]] + Split(t)[1..];
    } else {
      assert (w + t)[1..] == w[1..] + t;
      assert (w + t)[0] == w[0] != '\n';
      SplitPrefix(w[1..], t);
      var rest := Split(w[1..] + t);
      assert rest[0] == w[1..] + Split(t)[0];
      assert rest[1..] == Split(t)[1..];
      assert w == [w[0]] + w[1..];
      assert [w[0]] + rest[0] == w + Split(t)[0];
    }
  }

  /** Joining newline-free lines and splitting again gives the lines back. */
  lemma {:induction false} SplitJoin(lines: seq<string>)
    requires |lines| >= 1
    requires forall i :: 0 <= i < |lines| ==> '\n' !in lines[i]
    ensures Split(Join(lines)) == lines
    decreases |lines|
  {
    if |lines| == 1 {
      SplitPrefix(lines[0], "");
      assert lines[0] + "" == lines[0];
    } else {
      var t := Join(lines[1..]);
      SplitJoin(lines[1..]);
      assert lines[0] + "\n" + t == lines[0] + ("\n" + t);
      SplitPrefix(lines[0], "\n" + t);
      assert ("\n" + t)[1..] == t;
      assert ("\n" + t)[0] == '\n';
      assert Split("\n" + t) == [""] + Split(t);
      assert lines[0] + "" == lines[0];
      assert lines == [lines[0]] + lines[1..];
    }
  }
}
